=== FILE: README.md ===
# Grocery and pantry client — a Dafny model of its derivations and decisions

The client is a thin React front end over a hosted backend. Its logic is a set of small,
deterministic derivations and state transitions embedded in components, and this project
lifts each one out as a pure Dafny function over immutable sequences of records:

- the shopping list:
  - the low-stock list and the suggestions that skip names already on the list;
  - the spent total and the budget progress (the unclamped value drives the red colour, the clamped value the bar width);
  - the check-out plan: one history post, then one restock upsert per checked item, read from the pre-trip pantry snapshot;
  - the section and category groupings;
- the dashboard: its low-stock strip, the +/- quantity guard, the category counts and the stock-bar width;
- the "Log Usage" dialog: reject, delete the used-up item, or write the lowered quantity; and "Remove Completely";
- the recipe list:
  - the search and the veg / non-veg filter;
  - the `|||IMAGE:` link carried inside a description;
  - the match-percentage colour bands;
  - the expand/collapse toggle with its details cache;
- the analytics page: the remaining budget, the clamped percentage and its colours, and the donut segments with offsets as prefix sums of the arc lengths;
- the account page: dietary preferences joined with ", " on load and parsed back on save (a proved round-trip), the trip count, the lifetime spend and the five recent trips;
- the notification store: fetch, the realtime insert, "mark all as read", the sign-out reset, and the invariant that the badge never exceeds the list;
- the "Pantry Chef" chat: the message log, the history sent with each question, and the reply or fallback;
- the request interceptor's choice of Authorization header, and the route guard's loading / redirect / render outcome.

Every handler that talks to the API is modelled as a function returning the requests it
would send (`Entities.Request`: pantry PUT / POST / DELETE, history POST, notification
read PUT), never as I/O. How a request ended (success, failure, the reply body, or the
index of the first rejected request of the check-out) is a parameter where the source
branches on it.

JavaScript's coercions are written out:
- `Number(x) || d` is `Coerce.NumberOr` over `Option<real>`, where `None` stands for NaN or a missing value, and 0 also falls back;
- `x || d` on text is `Coerce.TextOr`;
- `toLowerCase` is `Text.Lower`, and `trim` is `Text.Trim` over the ECMAScript whitespace set;
- `includes` / `split` / `join` are `Text.Contains` / `Text.Split` / `Text.Join`.

Foundations: `Wrappers` (Option), `Seqs` (Filter, Map, Sum, FindFirst, IsSubsequence),
`Text`, `Coerce`, `Grouping` (the `reduce`-into-an-object grouping) and `Entities` (the
records the client reads and the requests it sends).

## Model

| member | source | states |
|---|---|---|
| Coerce.NumberOr | frontend/src/pages/ShoppingList.jsx:134 | `Number(x) \|\| d`: the value itself when it is a non-zero number, otherwise the default |
| Coerce.TextOr | frontend/src/pages/ShoppingList.jsx:175 | `x \|\| d` on text: the text when present and non-empty, otherwise the default |
| ShoppingList.LowStock | frontend/src/pages/ShoppingList.jsx:78 | an item is listed iff its quantity is at or below its threshold (equality counts as low), in pantry order |
| ShoppingList.Suggestions | frontend/src/pages/ShoppingList.jsx:352-358 | the suggestions are exactly the low-stock items whose lower-cased name equals no grocery item's lower-cased name (whole-name equality, not substring) |
| ShoppingList.CurrentTotal | frontend/src/pages/ShoppingList.jsx:130-134 | the spent total is 0 when nothing is checked and non-negative whenever every price is; with the append lemma below this fixes it as the sum of the checked prices |
| ShoppingList.CurrentTotalCountsCheckedOnly | frontend/src/pages/ShoppingList.jsx:130-134 | one more item adds its `Number(price) \|\| 0` when checked and nothing when unchecked |
| ShoppingList.PercentOfBudget | frontend/src/pages/ShoppingList.jsx:136-137 | for a positive budget the percentage times the budget is the total times 100, and it exceeds or equals 100 exactly when the total exceeds or equals the budget |
| ShoppingList.PercentOfCount | frontend/src/pages/ShoppingList.jsx:138-140 | the count-based fallback times the count is the checked count times 100; it lies in [0, 100] and is 100 exactly when every item is checked |
| ShoppingList.BudgetShare | frontend/src/pages/ShoppingList.jsx:137 | the share times the budget is the total times 100, so it is above (at) 100 exactly when the total is above (at) the budget |
| ShoppingList.CountShare | frontend/src/pages/ShoppingList.jsx:140 | the share times the item count is the checked count times 100; it lies in [0, 100] and is 100 iff every item is checked |
| ShoppingList.Progress | frontend/src/pages/ShoppingList.jsx:135-141 | with a budget, progress times the budget is the checked total times 100 (so above or at 100 exactly when the total is); without one, progress is the count share of the checked items (whose contract gives share times count = checked count times 100), it lies in [0, 100], is 0 for an empty list, and is 100 iff every item is checked |
| ShoppingList.DisplayProgress | frontend/src/pages/ShoppingList.jsx:142 | the bar width never exceeds 100; it equals the progress unless that is over 100, and it falls short of the progress exactly in the over-budget state |
| ShoppingList.OverBudgetOnlyWithBudget | frontend/src/pages/ShoppingList.jsx:242-248 | the label and bar are red iff a budget is set and the checked total exceeds it |
| ShoppingList.FindPantryByName | frontend/src/pages/ShoppingList.jsx:171 | the first pantry row whose lower-cased name equals the item's; none iff no row matches |
| ShoppingList.RestockRequest | frontend/src/pages/ShoppingList.jsx:171-176 | a PUT iff some row has the same lower-cased name, raising the first such row from its snapshot quantity by `Number(quantity) \|\| 1`; otherwise a POST in "Others" with threshold 1 and unit defaulting to "Unit" |
| ShoppingList.RestockPlan | frontend/src/pages/ShoppingList.jsx:170-177 | one restock request per checked item, in order |
| ShoppingList.RestockReadsSnapshot | frontend/src/pages/ShoppingList.jsx:170-173 | two same-named bought items with a pantry match both write that row's pre-trip quantity plus their own amount, so the second overwrites the first |
| ShoppingList.RestockDuplicatesCreateTwice | frontend/src/pages/ShoppingList.jsx:174-175 | two same-named bought items without a match produce two separate creations |
| ShoppingList.FinishTrip | frontend/src/pages/ShoppingList.jsx:144-177 | the plan when every request succeeds: nothing checked, or no list id on the first checked item, sends nothing; otherwise a history post of the checked total, then the restock plan |
| ShoppingList.CheckOut | frontend/src/pages/ShoppingList.jsx:154-187 | the requests are awaited in turn inside one `try`: what is sent is always a prefix of the plan, it ends with the first rejected request and reports the failure, and with no rejection it is the whole plan |
| ShoppingList.RejectedHistoryRestocksNothing | frontend/src/pages/ShoppingList.jsx:164-177 | a rejected history post is the only request sent, so the pantry is not restocked |
| ShoppingList.RejectedRestockSkipsRest | frontend/src/pages/ShoppingList.jsx:170-177 | a rejected k-th restock leaves the history post and the restocks up to and including it; none after it is sent |
| ShoppingList.TripRestocksCheckedOnly | frontend/src/pages/ShoppingList.jsx:170 | every restock request of a logged trip stems from a checked item |
| ShoppingList.CategoryOf | frontend/src/pages/ShoppingList.jsx:199 | the planning group of an item is its category, or "Others" when that is missing or empty |
| ShoppingList.PlanningGroups | frontend/src/pages/ShoppingList.jsx:198-203 | no group is unnamed, every item is filed under its own category, nothing else is filed, and the groups hold exactly the pantry's items |
| ShoppingList.VisibleSections | frontend/src/pages/ShoppingList.jsx:382-386 | each shown section is exactly one group's key with that group's unchecked members; a section left with none is hidden; every unchecked item stays under its section; distinct group keys give distinct section headers |
| ShoppingList.ShoppingSections | frontend/src/pages/ShoppingList.jsx:382-396 | grouped by section then filtered: each shown section holds exactly the list's unchecked items of that section, in list order (so its "N items" badge counts them), no section is shown twice or empty, and every unchecked item is shown under its own section |
| Grouping.GroupBy | frontend/src/pages/ShoppingList.jsx:191-195 | one non-empty group per distinct key, in the order `Grouping.Keys` lists them; each group's members are exactly the list's elements with that key, in list order; every element is filed under its own key and only there |
| Grouping.KeysInOrder | frontend/src/pages/ShoppingList.jsx:191-195 | the keys (the order `Object.keys` lists them in) come out in order of first appearance: each listed key occurs in the list, an unlisted key never does, and earlier keys first occur earlier |
| Grouping.GroupByPreservesCount | frontend/src/pages/ShoppingList.jsx:191-203 | grouping partitions the list: the groups together hold exactly as many elements as the list |
| Dashboard.LowStock | frontend/src/pages/Dashboard.jsx:62-64 | an item is in the strip iff it is at or below threshold and no grocery item's lower-cased name equals its own |
| Dashboard.LowStockMatchesSuggestions | frontend/src/pages/Dashboard.jsx:62-64 | the strip equals the shopping list's suggestion box for the same pantry and grocery list, order included |
| Dashboard.LowStockKeepsOrder | frontend/src/pages/Dashboard.jsx:62 | the strip is a filter: it keeps pantry order across concatenation |
| Dashboard.UpdateQuantity | frontend/src/pages/Dashboard.jsx:42-51 | a negative target sends nothing, otherwise exactly one PUT; no request writes a negative quantity |
| Dashboard.Decrement | frontend/src/pages/Dashboard.jsx:155 | "-" sends nothing iff the quantity is below 1 (so 0 is a no-op), else one PUT one lower |
| Dashboard.Increment | frontend/src/pages/Dashboard.jsx:164 | "+" always sends one PUT one higher for a non-negative quantity |
| Dashboard.CategoryCount | frontend/src/pages/Dashboard.jsx:222 | a tile's count is at most the pantry size, and zero iff no item's category equals the tile's name exactly |
| Dashboard.CategoryCountAppend | frontend/src/pages/Dashboard.jsx:222 | one more item raises its own category's count by one and leaves every other count alone |
| Dashboard.KnownCategoryTotal | frontend/src/pages/Dashboard.jsx:9-16 | the six tile counts add up to the number of items whose category is one of the six names, so items outside them are counted in none |
| Dashboard.StockBarWidth | frontend/src/pages/Dashboard.jsx:145-148 | the bar is full at or above threshold, proportional below it, and never wider than 100 |
| UsageModal.FindById | frontend/src/components/common/UsageModal.jsx:14 | the first row whose id string equals the selection; none iff no row has it |
| UsageModal.Submit | frontend/src/components/common/UsageModal.jsx:14-34 | an unknown selection or a non-positive amount is rejected with its message; a request goes out iff neither holds; a used-up item is deleted, otherwise one PUT of `quantity - used`, strictly between 0 and the current quantity |
| UsageModal.SubmitLowersStock | frontend/src/components/common/UsageModal.jsx:20-32 | a sent request targets the selected row, and a PUT removes exactly the amount typed |
| UsageModal.RemoveCompletely | frontend/src/components/common/UsageModal.jsx:91-103 | no selection is rejected, an unknown selection ends in the removal-failed message, and otherwise the selected row is deleted |
| UsageModal.UsedUpIsRemoval | frontend/src/components/common/UsageModal.jsx:23-25 | logging at least the whole stock sends the very DELETE that "Remove Completely" sends |
| UsageModal.AfterRequest | frontend/src/components/common/UsageModal.jsx:36-38 | after a success the selection and amount are reset to empty; after a failure the form is kept |
| Recipes.Visible | frontend/src/pages/Recipes.jsx:152-165 | a recipe is shown iff it matches the search and the diet position allows it; the cards keep list order |
| Recipes.EmptySearchShowsAll | frontend/src/pages/Recipes.jsx:154-159 | an empty query with "All" shows every recipe, in order |
| Recipes.DietPartition | frontend/src/pages/Recipes.jsx:159-162 | "Veg" and "NonVeg" split the search result: no recipe in both, every match in one, counts adding up to "All" |
| Recipes.VisibleKeepsOrder | frontend/src/pages/Recipes.jsx:152-165 | the filter never reorders, so the matcher's ranking is kept |
| Recipes.DecodeDescription | frontend/src/pages/Recipes.jsx:166-168 | without the delimiter the text is shown whole with no image; with it, the text before the first delimiter and, as the image, the text between the first delimiter and the next one (or the end), none when that is empty; neither part contains the delimiter |
| Recipes.DescriptionRoundTrip | frontend/src/pages/Recipes.jsx:166-168 | decoding a text joined to a link by the delimiter gives both back |
| Recipes.MatchColour | frontend/src/pages/Recipes.jsx:198 | green above 80, yellow above 40 up to 80, red at 40 or below |
| Recipes.MatchBar | frontend/src/pages/Recipes.jsx:183-198 | the bar is drawn iff the field is not missing, so for a JSON `null` too; its colour is the band of the number the field compares as (`null` as 0): green iff a percentage above 80, red iff `null` or a percentage at most 40, yellow between; a perfect match is green |
| Recipes.Toggle | frontend/src/pages/Recipes.jsx:42-59 | clicking the expanded card collapses it, any other card expands instead, and a fetch happens iff a collapsed card without truthy cached details is clicked, the card then showing the loading text |
| Recipes.Loaded | frontend/src/pages/Recipes.jsx:54 | the response body is stored under its id whatever it is, nothing else in the cache changes, and the card has details iff the body is truthy |
| Recipes.ToggleTwiceCollapses | frontend/src/pages/Recipes.jsx:42-48 | two clicks on a collapsed card leave it collapsed with the cache unchanged and no fetch on the second |
| Recipes.CachedNeverRefetched | frontend/src/pages/Recipes.jsx:51 | once truthy details are cached, no click fetches them again |
| Recipes.FalsyBodyRefetched | frontend/src/pages/Recipes.jsx:51-54 | a falsy body (`null` or `""`) is stored yet counts as nothing: the open card keeps the loading text of line 242, and collapsing and expanding it again fetches again |
| Analytics.AfterFetch | frontend/src/pages/Analytics.jsx:16-40 | the response body on success, the fixed fallback summary on failure |
| Analytics.Remaining | frontend/src/pages/Analytics.jsx:42 | never negative, zero iff the goal is spent, and otherwise exactly what is left |
| Analytics.ProgressPercent | frontend/src/pages/Analytics.jsx:43 | at most 100, exactly 100 iff the goal is reached, otherwise the share of the goal spent |
| Analytics.BudgetColour | frontend/src/pages/Analytics.jsx:125 | red above 90, yellow above 75 up to 90, green at 75 or below |
| Analytics.RedMeansLittleLeft | frontend/src/pages/Analytics.jsx:42-43 | a red bar means less than a tenth of the goal remains |
| Analytics.Divisor | frontend/src/pages/Analytics.jsx:52 | `spent \|\| 1` is never zero and is the total spent when that is non-zero |
| Analytics.Gap | frontend/src/pages/Analytics.jsx:162 | the gap is 2 iff there is more than one category, else 0 |
| Analytics.Dash | frontend/src/pages/Analytics.jsx:173 | the dash is the arc less the gap, or 0 when that would be negative |
| Analytics.DonutSegments | frontend/src/pages/Analytics.jsx:156-173 | one segment per category: its slice's share of the circle, starting at the sum of the arcs before it, with its dash |
| Analytics.StartStep | frontend/src/pages/Analytics.jsx:158-159 | each segment starts where the previous one ends |
| Analytics.SegmentsCloseCircle | frontend/src/pages/Analytics.jsx:156-159 | when the slices add up to the non-zero total, the segments cover exactly the whole circle |
| Analytics.StartsIncrease | frontend/src/pages/Analytics.jsx:156-159 | with non-negative amounts the offsets never decrease |
| ProfileAccount.ParsePreferences | frontend/src/pages/ProfileAccount.jsx:43 | every parsed entry is non-empty, trimmed and comma-free |
| ProfileAccount.ParseWithoutComma | frontend/src/pages/ProfileAccount.jsx:43 | comma-free text parses to its trimmed self, or to nothing when blank |
| ProfileAccount.JoinPreferences | frontend/src/pages/ProfileAccount.jsx:28 | missing or empty preferences give the empty field, a single entry gives itself, and two or more give the first entry, ", ", then the join of the rest |
| ProfileAccount.ParseJoinRoundTrip | frontend/src/pages/ProfileAccount.jsx:28-43 | parsing the ", "-joined clean entries gives back the same list, in order |
| ProfileAccount.LoadForm | frontend/src/pages/ProfileAccount.jsx:27-28 | the name field is `full_name \|\| ""` and the preference field is the ", " join of the preferences, empty when they are missing |
| ProfileAccount.SaveRequest | frontend/src/pages/ProfileAccount.jsx:42-49 | the PUT carries the name as typed and the parse of the typed preference field, whose entries are all clean |
| ProfileAccount.SaveUneditedKeepsPreferences | frontend/src/pages/ProfileAccount.jsx:28-49 | loading the profile into the form (done on fetch, not by the Edit button) and saving it untouched keeps clean preferences unchanged |
| ProfileAccount.AccountStats | frontend/src/pages/ProfileAccount.jsx:133-138 | the trip count is the history length, and the lifetime spend is 0 for no trips and non-negative when every recorded total is; with the append lemma below this fixes it as the sum |
| ProfileAccount.StatsAppend | frontend/src/pages/ProfileAccount.jsx:133-138 | one more trip adds one to the count and its `Number(total_spent) \|\| 0` to the spend, nothing for an unreadable total |
| ProfileAccount.RecentTrips | frontend/src/pages/ProfileAccount.jsx:148 | the first `min(5, \|history\|)` trips, in order |
| ProfileAccount.RecentTripsIgnoreOlder | frontend/src/pages/ProfileAccount.jsx:148 | trips after the fifth never show |
| Notifications.UnreadOf | frontend/src/context/NotificationContext.jsx:18 | exactly the listed notifications not yet read |
| Notifications.Fetch | frontend/src/context/NotificationContext.jsx:13-22 | signed out or failed: nothing changes; otherwise the list is replaced and the badge is its unread count |
| Notifications.FetchAsWritten | frontend/src/context/NotificationContext.jsx:17-18 | as written, a null body empties the list but keeps the old badge count |
| Notifications.NullBodyLeavesStaleCount | frontend/src/context/NotificationContext.jsx:17-18 | one unread notification then a null body: the badge shows 1 over an empty list |
| Notifications.Insert | frontend/src/context/NotificationContext.jsx:63-66 | the new notification goes in front, the rest is unchanged, and the badge rises by exactly one |
| Notifications.SignedOut | frontend/src/context/NotificationContext.jsx:44-47 | sign-out leaves an empty list and a zero badge |
| Notifications.MarkAllAsRead | frontend/src/context/NotificationContext.jsx:33-36 | one read request per unread notification, none for read ones |
| Notifications.CountStaysBounded | frontend/src/context/NotificationContext.jsx:18-66 | the badge never exceeds the list: fetch, insert and sign-out keep the bound |
| Notifications.MarkAllMatchesBadge | frontend/src/context/NotificationContext.jsx:18-36 | straight after a fetch, "mark all" sends as many requests as the badge shows |
| Notifications.NothingToMark | frontend/src/context/NotificationContext.jsx:35-36 | with everything read, "mark all" sends nothing |
| AIChef.History | frontend/src/components/common/AIChefModal.jsx:31-34 | only messages with text are sent, every entry's text is non-empty, and each comes from the log with its role |
| AIChef.HistoryAppend | frontend/src/components/common/AIChefModal.jsx:31-34 | history keeps order: the history of a longer log extends the shorter one's |
| AIChef.HistoryOfOne | frontend/src/components/common/AIChefModal.jsx:31 | a message with text enters the history, one without is dropped |
| AIChef.Send | frontend/src/components/common/AIChefModal.jsx:21-39 | a blank box changes nothing; otherwise one user message with the untrimmed text is appended, the box clears, loading starts, and the question goes out with the history of the earlier log |
| AIChef.Receive | frontend/src/components/common/AIChefModal.jsx:41-46 | exactly one model message (the reply, or the fallback on failure) is appended, and loading stops |
| AIChef.ExchangeAddsTwo | frontend/src/components/common/AIChefModal.jsx:21-46 | a full exchange grows the log by the question then the answer, leaving the dialog idle |
| AIChef.FirstQuestionHistory | frontend/src/components/common/AIChefModal.jsx:6-8 | the first question carries the welcome message as its only history |
| Api.Authorize | frontend/src/services/api.js:9-23 | a token gives a Bearer header; otherwise an invite gives an Invite header; otherwise the headers pass through; no other header changes |
| Api.TokenTakesPrecedence | frontend/src/services/api.js:13-19 | with a token the invite makes no difference and the header is Bearer |
| Api.AuthorizeIdempotent | frontend/src/services/api.js:9-23 | running the interceptor twice equals running it once |
| ProtectedRoute.Guard | frontend/src/components/ProtectedRoute.jsx:5-23 | loading shows the loader; no user and no invite redirect to /login carrying the location; a user or an invite renders the page |
| ProtectedRoute.GuestPagesAreAuthorized | frontend/src/components/ProtectedRoute.jsx:8-22 | a guest with an invite gets the page, and its API calls carry that invite |
| ProtectedRoute.RedirectOnlyWithoutCredentials | frontend/src/components/ProtectedRoute.jsx:18-20 | a redirect happens only when the interceptor would have no Authorization to add |

## Left out

- Network I/O, toasts, localStorage, clipboard and rendering: requests are values, and outcomes, session state and stored invites are parameters.
- Supabase realtime channels, the `setTimeout` cleanup delays in ShoppingList.jsx, and the reload after each request: these are concurrency and timers. The realtime insert is modelled as a transition.
- Handlers of the shopping list that are not part of this model: adding one low-stock item to the list, the budget save, the price estimate on focus, check toggling, and item deletion. The dashboard's `deleteItem` (a bare DELETE) and its price-estimate handler are left out too.
- `markAsRead` for a single notification: it is one PUT followed by a re-fetch, and `Fetch` covers the re-fetch.
- The server-side pantry-to-recipe matcher, the `Math.random` cook time, coupons, and expiry dates.
- The donut's circumference, `2πr`, is not computed: it is a parameter, since real numbers here have no π.
- Text: `toLowerCase` is modelled on ASCII letters only, with no Unicode case mapping.
- Object keys: `Object.keys` on the grouping lists string keys in insertion order, which is the first-appearance order `Grouping.KeysInOrder` proves. JavaScript lists integer-like keys first, and that case is not modelled. A section or category named after an inherited `Object.prototype` property (`"constructor"`, `"toString"`, `"__proto__"`) finds `acc[key]` already set, so `acc[key].push` throws in the source; `Grouping.GroupBy` files such an item like any other.
- Number precision: JavaScript numbers are IEEE-754 doubles and every total here is a rounding left fold (`0.1 + 0.2 != 0.3`). The model uses exact reals, so the sums behind `ShoppingList.CurrentTotalCountsCheckedOnly`, `ProfileAccount.StatsAppend` and the `Analytics.DonutSegments` offsets are exact only over the reals.
- Sorting: the `localeCompare` sort inside a planning group (ShoppingList.jsx:318) is not modelled, because locale collation has no definition here.
- Notifications.Insert: like the source, it does not look at the inserted row's read flag. The exact count is therefore not an invariant; the bound `unreadCount <= |notifications|` is.
- NaN corners are not modelled: a non-numeric stored quantity or price, and a NaN amount in the usage dialog, which the source lets through its `<= 0` check. `Number(x) || d` is modelled with `None` for NaN.
- Analytics.ProgressPercent: requires a positive goal; a goal of 0 divides by zero in the source (Infinity or NaN), which is not modelled.
- Dashboard.StockBarWidth: requires a positive threshold; a threshold of 0 divides by zero in the source, which is not modelled.
- Recipes.Visible: the diet filter's final `return true` cannot be reached, because the toggle has exactly three positions.
- AIChef.Send: sends that overlap while a reply is pending are not modelled. Each exchange is Send followed by Receive.
- ProfileAccount.ParseJoinRoundTrip: this is proved for entries that are non-empty, trimmed and comma-free, the only entries the field can carry unchanged.

## Findings

| source | as written | input that shows it | evidently intended | confidence | as-written member | corrected member |
|---|---|---|---|---|---|---|
| frontend/src/context/NotificationContext.jsx:17-18 | the list is set from `res.data \|\| []`, then the count is taken from `res.data.filter(...)`, which throws on a null body after the list is already emptied, so the badge keeps its old count | a store with one unread notification and a badge of 1 receives a 200 response with a null body: afterwards the list is empty and the badge still shows 1 | count the unread notifications of `res.data \|\| []`, so the badge resets to 0 with the list | not executed | Notifications.FetchAsWritten, Notifications.NullBodyLeavesStaleCount | Notifications.Fetch |

=== FILE: ai_chef.dfy ===
/** The "Pantry Chef" chat dialog: the message log, the input box and the loading flag,
    and the history the client sends along with each question. */
module AIChef {
  import opened Wrappers
  import opened Seqs
  import Text
  import Coerce

  /** Who wrote a message. */
  datatype Role = User | Model

  /** A chat message. A reply whose body had no `reply` field has no text. */
  datatype Message = Message(role: Role, text: Option<string>)

  /** The dialog's state. */
  datatype Chat = Chat(messages: seq<Message>, input: string, loading: bool)

  /** One entry of the history sent to the model: a role and a non-empty text. */
  datatype HistoryEntry = HistoryEntry(role: Role, text: string)

  /** The body of the `/ai` POST. */
  datatype ChatRequest = ChatRequest(message: string, history: seq<HistoryEntry>)

  /** A send: the state afterwards and the request it fires, if any. */
  datatype Sent = Sent(chat: Chat, request: Option<ChatRequest>)

  /** How the `/ai` POST ended: the body's `reply` field (possibly absent), or a failure. */
  datatype Outcome = Replied(reply: Option<string>) | Failed

  const Welcome := "Hi! I'm Pantry Chef. What would you like to cook today?"
  const Fallback := "Oops, I'm having trouble thinking right now. Please try again later."

  /** The dialog as it opens: the welcome message alone, an empty box, not loading. */
  const Initial := Chat([Message(Model, Some(Welcome))], "", false)

  /** Whether a message has text worth sending (`m.text` is truthy). */
  predicate HasText(m: Message)
  {
    Coerce.Truthy(m.text)
  }

  /** A message with text as a history entry. */
  function ToEntry(m: Message): HistoryEntry
  {
    HistoryEntry(m.role, m.text.GetOr(""))
  }

  /** The history for a log: the messages with text, roles and order kept. */
  function History(messages: seq<Message>): (h: seq<HistoryEntry>)
    ensures |h| <= |messages|
    ensures forall k :: 0 <= k < |h| ==> h[k].text != ""
    ensures forall k :: 0 <= k < |h| ==>
      exists j :: 0 <= j < |messages| && messages[j] == Message(h[k].role, Some(h[k].text))
  {
    var kept := Filter(messages, HasText);
    var h := Map(kept, ToEntry);
    assert forall k :: 0 <= k < |h| ==> kept[k] in kept && h[k] == ToEntry(kept[k]);
    h
  }

  /** History keeps order: the history of a longer log extends that of a shorter one. */
  lemma HistoryAppend(a: seq<Message>, b: seq<Message>)
    ensures History(a + b) == History(a) + History(b)
  {
    FilterAppend(a, b, HasText);
    MapAppend(Filter(a, HasText), Filter(b, HasText), ToEntry);
  }

  /** A message with text enters the history, one without is left out. */
  lemma HistoryOfOne(m: Message)
    ensures HasText(m) ==> History([m]) == [HistoryEntry(m.role, m.text.value)]
    ensures !HasText(m) ==> History([m]) == []
  {
    assert [m][1..] == [];
  }

  /** `handleSend`. A blank box (empty or whitespace after trimming) changes nothing and
      sends nothing. Otherwise exactly one user message with the untrimmed text is
      appended, the box is cleared, loading starts, and the question goes out with the
      history of the log as it was before the new message. */
  function Send(c: Chat): (r: Sent)
    ensures Text.Trim(c.input) == "" ==> r == Sent(c, None)
    ensures Text.Trim(c.input) != "" ==>
      && r.chat.messages == c.messages + [Message(User, Some(c.input))]
      && r.chat.input == ""
      && r.chat.loading
      && r.request == Some(ChatRequest(c.input, History(c.messages)))
  {
    if Text.Trim(c.input) == "" then Sent(c, None)
    else Sent(Chat(c.messages + [Message(User, Some(c.input))], "", true),
              Some(ChatRequest(c.input, History(c.messages))))
  }

  /** The answer arriving: exactly one model message is appended (the reply, or the
      fallback apology on failure) and loading stops either way. */
  function Receive(c: Chat, outcome: Outcome): (r: Chat)
    ensures |r.messages| == |c.messages| + 1
    ensures r.messages[..|c.messages|] == c.messages
    ensures r.messages[|c.messages|].role == Model
    ensures outcome.Replied? ==> r.messages[|c.messages|].text == outcome.reply
    ensures outcome.Failed? ==> r.messages[|c.messages|].text == Some(Fallback)
    ensures !r.loading && r.input == c.input
  {
    var text := match outcome
      case Replied(reply) => reply
      case Failed => Some(Fallback);
    Chat(c.messages + [Message(Model, text)], c.input, false)
  }

  /** A full exchange from a non-blank box grows the log by exactly two messages, the
      question then the answer, and leaves the dialog idle with an empty box. */
  lemma ExchangeAddsTwo(c: Chat, outcome: Outcome)
    requires Text.Trim(c.input) != ""
    ensures var after := Receive(Send(c).chat, outcome);
      && |after.messages| == |c.messages| + 2
      && after.messages[..|c.messages|] == c.messages
      && after.messages[|c.messages|] == Message(User, Some(c.input))
      && after.messages[|c.messages| + 1].role == Model
      && !after.loading && after.input == ""
  {
    var sent := Send(c).chat;
    assert sent.messages[..|c.messages|] == c.messages;
  }

  /** The first question carries the welcome message as its only history entry. */
  lemma FirstQuestionHistory(question: string)
    requires Text.Trim(question) != ""
    ensures Send(Chat(Initial.messages, question, false)).request
      == Some(ChatRequest(question, [HistoryEntry(Model, Welcome)]))
  {
    HistoryOfOne(Message(Model, Some(Welcome)));
  }
}

=== FILE: analytics.dfy ===
/** The analytics page: remaining budget, the clamped progress bar and its colour, and
    the donut chart whose segments are laid end to end around the circle. */
module Analytics {
  import opened Seqs
  import opened Entities

  /** One slice of the spending breakdown. */
  datatype CategorySpend = CategorySpend(name: string, amount: real)

  /** The analytics payload: the budget goal, the amount spent and the breakdown. */
  datatype Summary = Summary(goal: real, spent: real, categories: seq<CategorySpend>)

  /** What the page shows before the first response arrives. */
  const InitialSummary := Summary(500.0, 0.0, [])

  /** What the page shows when the analytics request fails. */
  const FallbackSummary := Summary(500.0, 379.5, [
    CategorySpend("Produce", 170.5),
    CategorySpend("Snacks", 113.85),
    CategorySpend("Dairy & Other", 94.65)])

  /** The summary after a fetch: the response body, or the fallback on failure. */
  function AfterFetch(response: Wrappers.Option<Summary>): (r: Summary)
    ensures response.Some? ==> r == response.value
    ensures response.None? ==> r == FallbackSummary
  {
    response.GetOr(FallbackSummary)
  }

  /** `Math.max(0, goal - spent)`: what is left of the budget, never negative. */
  function Remaining(goal: real, spent: real): (r: real)
    ensures r >= 0.0
    ensures r == 0.0 <==> spent >= goal
    ensures spent <= goal ==> r + spent == goal
  {
    if goal - spent > 0.0 then goal - spent else 0.0
  }

  /** `Math.min(100, spent / goal * 100)` for a positive goal: at most 100, exactly 100
      once the goal is reached, and otherwise the share of the goal spent. */
  function ProgressPercent(goal: real, spent: real): (r: real)
    requires goal > 0.0
    ensures r <= 100.0
    ensures r == 100.0 <==> spent >= goal
    ensures spent < goal ==> r * goal == spent * 100.0
    ensures spent >= 0.0 ==> r >= 0.0
  {
    var p := spent / goal * 100.0;
    ShareOfGoal(goal, spent);
    if p < 100.0 then p else 100.0
  }

  /** The unclamped share compares with 100 exactly as the spending compares with the goal. */
  lemma ShareOfGoal(goal: real, spent: real)
    requires goal > 0.0
    ensures (spent / goal * 100.0) * goal == spent * 100.0
    ensures spent / goal * 100.0 < 100.0 <==> spent < goal
    ensures spent >= 0.0 ==> spent / goal * 100.0 >= 0.0
  {
    var q := spent / goal;
    assert q * goal == spent;
    if spent < goal {
      assert q < 1.0;
    } else {
      assert q >= 1.0;
    }
  }

  /** The bar colour: red above 90 percent, yellow above 75, green otherwise. */
  function BudgetColour(percent: real): (c: Colour)
    ensures c == Red <==> percent > 90.0
    ensures c == Yellow <==> 75.0 < percent <= 90.0
    ensures c == Green <==> percent <= 75.0
  {
    if percent > 90.0 then Red
    else if percent > 75.0 then Yellow
    else Green
  }

  /** A red bar means less than a tenth of the goal is left. */
  lemma RedMeansLittleLeft(goal: real, spent: real)
    requires goal > 0.0
    requires BudgetColour(ProgressPercent(goal, spent)) == Red
    ensures Remaining(goal, spent) * 10.0 < goal
  {
    var p := ProgressPercent(goal, spent);
    if spent < goal {
      ScaledAbove(p, goal, spent);
    }
  }

  /** A share above 90 of a positive goal means more than nine tenths of it is spent. */
  lemma ScaledAbove(p: real, goal: real, spent: real)
    requires p * goal == spent * 100.0 && p > 90.0 && goal > 0.0
    ensures spent * 10.0 > goal * 9.0
  {
    assert (p - 90.0) * goal > 0.0;
  }

  /** `data.spent || 1`: the divisor of the arc lengths, with a zero total replaced by 1. */
  function Divisor(spent: real): (d: real)
    ensures d != 0.0
    ensures spent != 0.0 ==> d == spent
  {
    if spent == 0.0 then 1.0 else spent
  }

  /** The gap left between segments: 2 when there are several categories, else none. */
  function Gap(count: nat): (g: real)
    ensures g == 2.0 <==> count > 1
    ensures g == 0.0 <==> count <= 1
  {
    if count > 1 then 2.0 else 0.0
  }

  /** The amount of a slice, as a term for `Sum`. */
  function Amount(c: CategorySpend): real
  {
    c.amount
  }

  /** The arc a slice of `amount` covers on a circle of the given circumference. */
  function Arc(amount: real, spent: real, circumference: real): real
  {
    amount / Divisor(spent) * circumference
  }

  /** Where segment `i` starts: the arc of all the slices before it. */
  function StartOf(categories: seq<CategorySpend>, i: nat, spent: real, circumference: real): real
    requires i <= |categories|
  {
    Arc(Sum(categories[..i], Amount), spent, circumference)
  }

  /** One drawn segment: its arc length, its start along the circle, and the dash drawn. */
  datatype Segment = Segment(length: real, offset: real, dash: real)

  /** Arcs add up: the arc of a sum is the sum of the arcs. */
  lemma ArcAdds(a: real, b: real, spent: real, circumference: real)
    ensures Arc(a + b, spent, circumference) == Arc(a, spent, circumference) + Arc(b, spent, circumference)
  {
    var d := Divisor(spent);
    var x := a / d;
    var y := b / d;
    assert x * d == a && y * d == b;
    assert (x + y) * d == a + b;
    assert (a + b) / d == x + y;
  }

  /** The dash drawn for an arc: the arc less the gap, but never negative. */
  function Dash(length: real, gap: real): (r: real)
    ensures r >= 0.0 && r >= length - gap
    ensures r == 0.0 || r == length - gap
  {
    if length - gap > 0.0 then length - gap else 0.0
  }

  /** The donut segments, built the way the page's `map` builds them with a running
      offset. Each segment's length is its slice's share of the circle, it starts where
      the slices before it end, and its dash is its length less the gap. */
  method DonutSegments(categories: seq<CategorySpend>, spent: real, circumference: real)
    returns (segs: seq<Segment>)
    ensures |segs| == |categories|
    ensures forall i :: 0 <= i < |segs| ==>
      segs[i] == Segment(Arc(categories[i].amount, spent, circumference),
                         StartOf(categories, i, spent, circumference),
                         Dash(Arc(categories[i].amount, spent, circumference), Gap(|categories|)))
  {
    var gap := Gap(|categories|);
    var offset := 0.0;
    segs := [];
    for k := 0 to |categories|
      invariant |segs| == k
      invariant offset == StartOf(categories, k, spent, circumference)
      invariant forall i :: 0 <= i < k ==>
        segs[i] == Segment(Arc(categories[i].amount, spent, circumference),
                           StartOf(categories, i, spent, circumference),
                           Dash(Arc(categories[i].amount, spent, circumference), gap))
    {
      var length := categories[k].amount / Divisor(spent) * circumference;
      segs := segs + [Segment(length, offset, Dash(length, gap))];
      StartStep(categories, k, spent, circumference);
      offset := offset + length;
    }
  }

  /** The next segment starts where the current one ends: offsets are prefix sums of
      the arc lengths. */
  lemma StartStep(categories: seq<CategorySpend>, k: nat, spent: real, circumference: real)
    requires k < |categories|
    ensures StartOf(categories, k + 1, spent, circumference)
      == StartOf(categories, k, spent, circumference) + Arc(categories[k].amount, spent, circumference)
  {
    assert categories[..k + 1] == categories[..k] + [categories[k]];
    SumAppend(categories[..k], [categories[k]], Amount);
    assert Sum([categories[k]], Amount) == categories[k].amount;
    ArcAdds(Sum(categories[..k], Amount), categories[k].amount, spent, circumference);
  }

  /** When the slices add up to the non-zero total spent, the last segment ends exactly
      where the first began: the segments cover the whole circle. */
  lemma SegmentsCloseCircle(categories: seq<CategorySpend>, spent: real, circumference: real)
    requires spent != 0.0 && Sum(categories, Amount) == spent
    ensures StartOf(categories, |categories|, spent, circumference) == circumference
  {
    assert categories[..|categories|] == categories;
    DivideBySelf(spent);
  }

  /** A non-zero number divided by itself is one. */
  lemma DivideBySelf(x: real)
    requires x != 0.0
    ensures x / x == 1.0
  {
    var q := x / x;
    assert q * x == x;
    assert (q - 1.0) * x == 0.0;
  }

  /** With non-negative amounts the segments never run backwards: each starts no
      earlier than the one before it. */
  lemma StartsIncrease(categories: seq<CategorySpend>, i: nat, spent: real, circumference: real)
    requires i < |categories|
    requires categories[i].amount >= 0.0 && spent >= 0.0 && circumference >= 0.0
    ensures StartOf(categories, i, spent, circumference) <= StartOf(categories, i + 1, spent, circumference)
  {
    StartStep(categories, i, spent, circumference);
    var d := Divisor(spent);
    var x := categories[i].amount / d;
    assert x * d == categories[i].amount;
    assert x >= 0.0;
  }
}

=== FILE: api.dfy ===
/** The request interceptor every API call passes through: it picks the Authorization
    header from the signed-in session or, failing that, from a stored guest invite. */
module Api {
  import opened Wrappers
  import Coerce

  /** The header the interceptor sets. */
  const AuthorizationHeader := "Authorization"

  /** The request headers after the interceptor. A session token (when non-empty) gives
      a Bearer header; otherwise a non-empty guest invite gives an Invite header;
      otherwise the headers pass through untouched. No other header is changed. */
  function Authorize(headers: map<string, string>, token: Option<string>, guestInvite: Option<string>)
    : (r: map<string, string>)
    ensures Coerce.Truthy(token) ==>
      AuthorizationHeader in r && r[AuthorizationHeader] == "Bearer " + token.value
    ensures !Coerce.Truthy(token) && Coerce.Truthy(guestInvite) ==>
      AuthorizationHeader in r && r[AuthorizationHeader] == "Invite " + guestInvite.value
    ensures !Coerce.Truthy(token) && !Coerce.Truthy(guestInvite) ==> r == headers
    ensures forall k :: k != AuthorizationHeader ==> (k in r <==> k in headers)
    ensures forall k :: k != AuthorizationHeader && k in headers ==> r[k] == headers[k]
  {
    if Coerce.Truthy(token) then headers[AuthorizationHeader := "Bearer " + token.value]
    else if Coerce.Truthy(guestInvite) then headers[AuthorizationHeader := "Invite " + guestInvite.value]
    else headers
  }

  /** The token wins: once a session token is present the stored invite makes no
      difference, and the header is always a Bearer one. */
  lemma TokenTakesPrecedence(headers: map<string, string>, token: string, invite1: Option<string>, invite2: Option<string>)
    requires token != ""
    ensures Authorize(headers, Some(token), invite1) == Authorize(headers, Some(token), invite2)
    ensures Authorize(headers, Some(token), invite1)[AuthorizationHeader][..7] == "Bearer "
  {
  }

  /** Running the interceptor twice with the same session and invite is the same as
      running it once. */
  lemma AuthorizeIdempotent(headers: map<string, string>, token: Option<string>, guestInvite: Option<string>)
    ensures Authorize(Authorize(headers, token, guestInvite), token, guestInvite)
      == Authorize(headers, token, guestInvite)
  {
  }
}

=== FILE: coerce.dfy ===
/** JavaScript's `x || d` defaulting, as the client applies it to numeric and text fields
    read from API responses. */
module Coerce {
  import opened Wrappers

  /** `Number(x) || d`. `None` stands for a field whose `Number(...)` is NaN (absent,
      undefined, unparsable); NaN and 0 are both falsy, so both fall back to `d`. */
  function NumberOr(x: Option<real>, d: real): (r: real)
    ensures r == d || (x == Some(r) && r != 0.0)
    ensures x.Some? && x.value != 0.0 ==> r == x.value
  {
    if x.Some? && x.value != 0.0 then x.value else d
  }

  /** A text field is truthy when present and non-empty. */
  predicate Truthy(x: Option<string>)
  {
    x.Some? && x.value != ""
  }

  /** `x || d` on a text field. */
  function TextOr(x: Option<string>, d: string): (r: string)
    ensures Truthy(x) ==> r == x.value
    ensures !Truthy(x) ==> r == d
  {
    if Truthy(x) then x.value else d
  }
}

=== FILE: dashboard.dfy ===
/** The dashboard page: the low-stock strip with its stock bars and +/- buttons, and the
    per-category counts of the virtual pantry. */
module Dashboard {
  import opened Seqs
  import opened Entities
  import Text
  import ShoppingList

  /** The six category tiles, in display order. */
  const Categories: seq<string> := ["Produce", "Dairy", "Grains", "Canned Goods", "Frozen", "Others"]

  /** Low on stock and not already on the grocery list. */
  function StillNeeded(groceries: seq<GroceryItem>): PantryItem -> bool
  {
    (p: PantryItem) => p.quantity <= p.threshold && !OnGroceryList(p.name, groceries)
  }

  /** The "Low Stock" strip: pantry items at or below threshold whose lower-cased name
      equals no grocery item's lower-cased name, in pantry order. */
  function LowStock(pantry: seq<PantryItem>, groceries: seq<GroceryItem>): (r: seq<PantryItem>)
    ensures forall p :: p in r <==>
      && p in pantry
      && p.quantity <= p.threshold
      && forall k :: 0 <= k < |groceries| ==> Text.Lower(groceries[k].name) != Text.Lower(p.name)
    ensures IsSubsequence(r, pantry)
  {
    Filter(pantry, StillNeeded(groceries))
  }

  /** The dashboard strip and the shopping list's suggestion box show the same items in
      the same order for the same pantry and grocery list. */
  lemma LowStockMatchesSuggestions(pantry: seq<PantryItem>, groceries: seq<GroceryItem>)
    ensures LowStock(pantry, groceries) == ShoppingList.Suggestions(pantry, groceries)
  {
    var both := Both(IsLowStock, ShoppingList.NotListed(groceries));
    FilterFilter(pantry, IsLowStock, ShoppingList.NotListed(groceries));
    FilterExt(pantry, both, StillNeeded(groceries));
  }

  /** The strip is a filter: the strip of a concatenated pantry is the concatenation of
      the strips, so pantry order is kept. */
  lemma LowStockKeepsOrder(front: seq<PantryItem>, back: seq<PantryItem>, groceries: seq<GroceryItem>)
    ensures LowStock(front + back, groceries) == LowStock(front, groceries) + LowStock(back, groceries)
  {
    FilterAppend(front, back, StillNeeded(groceries));
  }

  /** `updateQuantity`: a negative target quantity sends nothing; otherwise one PUT of
      the new quantity. No request ever writes a negative quantity. */
  function UpdateQuantity(item: PantryItem, newQty: real): (r: seq<Request>)
    ensures r == [] <==> newQty < 0.0
    ensures r != [] ==> r == [PutPantry(item.id, newQty)]
    ensures forall k :: 0 <= k < |r| ==> r[k].PutPantry? && r[k].quantity >= 0.0
  {
    if newQty < 0.0 then [] else [PutPantry(item.id, newQty)]
  }

  /** The "-" button: one below the current quantity, refused when that would be
      negative, so a decrement at 0 does nothing. */
  function Decrement(item: PantryItem): (r: seq<Request>)
    ensures r == [] <==> item.quantity < 1.0
    ensures r != [] ==> r == [PutPantry(item.id, item.quantity - 1.0)] && item.quantity - 1.0 >= 0.0
  {
    UpdateQuantity(item, item.quantity - 1.0)
  }

  /** The "+" button: one above the current quantity, always sent for a non-negative
      quantity. */
  function Increment(item: PantryItem): (r: seq<Request>)
    ensures item.quantity >= 0.0 ==> r == [PutPantry(item.id, item.quantity + 1.0)]
  {
    UpdateQuantity(item, item.quantity + 1.0)
  }

  /** Whether a pantry item's category is exactly `name`. */
  function InCategory(name: string): PantryItem -> bool
  {
    (p: PantryItem) => p.category == Wrappers.Some(name)
  }

  /** The count under a category tile: items whose category equals its name exactly. */
  function CategoryCount(pantry: seq<PantryItem>, name: string): (r: nat)
    ensures r <= |pantry|
    ensures r == 0 <==> forall i :: 0 <= i < |pantry| ==> pantry[i].category != Wrappers.Some(name)
  {
    CountZeroMeansNone(pantry, name);
    |Filter(pantry, InCategory(name))|
  }

  lemma CountZeroMeansNone(pantry: seq<PantryItem>, name: string)
    ensures |Filter(pantry, InCategory(name))| == 0 <==>
      forall i :: 0 <= i < |pantry| ==> pantry[i].category != Wrappers.Some(name)
  {
    var r := Filter(pantry, InCategory(name));
    if |r| > 0 {
      assert r[0] in pantry;
      var i :| 0 <= i < |pantry| && pantry[i] == r[0];
      assert InCategory(name)(pantry[i]);
    } else {
      forall i | 0 <= i < |pantry| ensures pantry[i].category != Wrappers.Some(name) {
        assert pantry[i] in pantry;
      }
    }
  }

  /** One more item raises its own category's count by one and leaves the others. */
  lemma CategoryCountAppend(pantry: seq<PantryItem>, x: PantryItem, name: string)
    ensures CategoryCount(pantry + [x], name) == CategoryCount(pantry, name) + (if x.category == Wrappers.Some(name) then 1 else 0)
  {
    FilterAppend(pantry, [x], InCategory(name));
  }

  /** The sum of the counts under the given tiles. */
  function CountsOver(names: seq<string>, pantry: seq<PantryItem>): nat
  {
    if |names| == 0 then 0 else CategoryCount(pantry, names[0]) + CountsOver(names[1..], pantry)
  }

  /** Whether an item's category is one of the six tiles. */
  predicate InKnownCategory(p: PantryItem)
  {
    p.category.Some? && p.category.value in Categories
  }

  lemma {:induction false} CountsOverAppend(names: seq<string>, pantry: seq<PantryItem>, x: PantryItem)
    requires forall i, j :: 0 <= i < j < |names| ==> names[i] != names[j]
    ensures CountsOver(names, pantry + [x]) ==
      CountsOver(names, pantry) + (if x.category.Some? && x.category.value in names then 1 else 0)
    decreases |names|
  {
    if |names| > 0 {
      CategoryCountAppend(pantry, x, names[0]);
      CountsOverAppend(names[1..], pantry, x);
      assert x.category.Some? && x.category.value in names <==>
        x.category == Wrappers.Some(names[0]) || (x.category.Some? && x.category.value in names[1..]);
    }
  }

  lemma {:induction false} CountsOverEmpty(names: seq<string>)
    ensures CountsOver(names, []) == 0
    decreases |names|
  {
    if |names| > 0 {
      CountsOverEmpty(names[1..]);
    }
  }

  lemma CategoriesDistinct()
    ensures forall i, j :: 0 <= i < j < |Categories| ==> Categories[i] != Categories[j]
  {
    var c := Categories;
    assert c[0][0] == 'P' && c[1][0] == 'D' && c[2][0] == 'G' && c[3][0] == 'C' && c[4][0] == 'F' && c[5][0] == 'O';
  }

  /** Items outside the six tiles are counted under none: the six counts add up to the
      number of items whose category is one of them, which is at most the pantry size. */
  lemma {:induction false} KnownCategoryTotal(pantry: seq<PantryItem>)
    ensures CountsOver(Categories, pantry) == |Filter(pantry, InKnownCategory)|
    ensures CountsOver(Categories, pantry) <= |pantry|
    decreases |pantry|
  {
    if |pantry| == 0 {
      CountsOverEmpty(Categories);
    } else {
      var init := pantry[..|pantry| - 1];
      var x := pantry[|pantry| - 1];
      assert pantry == init + [x];
      KnownCategoryTotal(init);
      CategoriesDistinct();
      CountsOverAppend(Categories, init, x);
      FilterAppend(init, [x], InKnownCategory);
    }
  }

  lemma BarRatio(q: real, t: real)
    requires t > 0.0
    ensures q >= t <==> q / t * 100.0 >= 100.0
    ensures q >= 0.0 ==> q / t * 100.0 >= 0.0
  {
    var f := q / t;
    assert f * t == q;
    if f >= 1.0 { assert f * t >= 1.0 * t; }
    if q >= t { assert f * t >= t; }
  }

  /** The red stock bar's width in percent, `min(quantity / threshold * 100, 100)`: full
      at or above the threshold, proportional below it, never more than 100. */
  function StockBarWidth(quantity: real, threshold: real): (r: real)
    requires threshold > 0.0
    ensures r <= 100.0
    ensures quantity >= threshold ==> r == 100.0
    ensures quantity < threshold ==> r < 100.0 && r == quantity / threshold * 100.0
    ensures quantity >= 0.0 ==> r >= 0.0
  {
    BarRatio(quantity, threshold);
    var w := quantity / threshold * 100.0;
    if w < 100.0 then w else 100.0
  }
}

=== FILE: entities.dfy ===
/** The records the client reads from the API, the requests it sends back, and the
    name and stock predicates shared by the dashboard and the shopping list. */
module Entities {
  import opened Wrappers
  import Text

  /** A row of the virtual pantry. Ids are kept in their `String(id)` form. */
  datatype PantryItem = PantryItem(
    id: string,
    name: string,
    category: Option<string>,
    quantity: real,
    unit: string,
    threshold: real)

  /** A row of the shared grocery list. `quantity` and `price` hold `Number(...)` of the
      field, `None` when that is NaN; `section` is the field as an object key. */
  datatype GroceryItem = GroceryItem(
    id: string,
    name: string,
    quantity: Option<real>,
    unit: Option<string>,
    price: Option<real>,
    section: string,
    isChecked: bool,
    listId: Option<string>)

  /** The body of a pantry-creating POST. */
  datatype NewPantryItem = NewPantryItem(
    name: string,
    category: string,
    quantity: real,
    unit: string,
    threshold: real)

  /** A request an event handler sends to the API. */
  datatype Request =
    | PutPantry(id: string, quantity: real)          // PUT /pantry
    | PostPantry(item: NewPantryItem)                // POST /pantry
    | DeletePantry(id: string)                       // DELETE /pantry/:id
    | PostHistory(listId: string, totalSpent: real)  // POST /history
    | MarkRead(notificationId: string)               // PUT /notifications/:id/read

  /** The three bar colours the client picks between. */
  datatype Colour = Green | Yellow | Red

  /** Two names denote the same product when their lower-cased forms are equal. */
  predicate SameName(a: string, b: string)
  {
    Text.Lower(a) == Text.Lower(b)
  }

  /** Some grocery item carries `name`, compared case-insensitively and exactly. */
  predicate OnGroceryList(name: string, items: seq<GroceryItem>)
  {
    exists k :: 0 <= k < |items| && SameName(items[k].name, name)
  }

  /** A pantry item is low on stock when its quantity has fallen to its threshold or below. */
  predicate IsLowStock(p: PantryItem)
  {
    p.quantity <= p.threshold
  }
}

=== FILE: grouping.dfy ===
/** Grouping a list by a string key with `reduce` into an object of arrays, as the
    shopping list does for grocery sections and pantry categories. */
module Grouping {
  import opened Seqs

  /** One entry of the grouped object: a key and the elements filed under it. */
  datatype Group<T> = Group(key: string, members: seq<T>)

  /** Some group named `k` holds `x`. */
  predicate Files<T(==)>(gs: seq<Group<T>>, k: string, x: T)
  {
    exists g :: 0 <= g < |gs| && gs[g].key == k && x in gs[g].members
  }

  /** Some group is named `k`. */
  predicate HasKey<T>(gs: seq<Group<T>>, k: string)
  {
    exists g :: 0 <= g < |gs| && gs[g].key == k
  }

  /** The predicate "has key `k`". */
  function KeyIs<T>(key: T -> string, k: string): T -> bool
  {
    x => key(x) == k
  }

  /** Where the key `k` first occurs in `s`, or `|s|` when it does not occur. */
  function FirstIndex<T>(s: seq<T>, key: T -> string, k: string): (i: nat)
    ensures i <= |s|
    ensures i < |s| ==> key(s[i]) == k
    ensures forall j :: 0 <= j < i ==> key(s[j]) != k
    decreases |s|
  {
    if |s| == 0 then 0
    else if key(s[0]) == k then 0
    else 1 + FirstIndex(s[1..], key, k)
  }

  /** Appending an element leaves every first occurrence inside the old list where it was. */
  lemma FirstIndexAppend<T>(init: seq<T>, x: T, key: T -> string, k: string)
    ensures FirstIndex(init, key, k) < |init| ==> FirstIndex(init + [x], key, k) == FirstIndex(init, key, k)
    ensures FirstIndex(init, key, k) == |init| && key(x) == k ==> FirstIndex(init + [x], key, k) == |init|
    ensures FirstIndex(init, key, k) == |init| && key(x) != k ==> FirstIndex(init + [x], key, k) == |init| + 1
  {
    var s := init + [x];
    assert forall j :: 0 <= j < |init| ==> s[j] == init[j];
    assert s[|init|] == x;
  }

  /** The distinct keys of `s` in order of first appearance, which is the order in which
      `reduce` creates the object's properties. */
  function Keys<T>(s: seq<T>, key: T -> string): (ks: seq<string>)
    ensures forall k :: k in ks <==> exists i :: 0 <= i < |s| && key(s[i]) == k
    ensures forall i, j :: 0 <= i < j < |ks| ==> ks[i] != ks[j]
    decreases |s|
  {
    if |s| == 0 then []
    else
      var init := s[..|s| - 1];
      var ks := Keys(init, key);
      assert forall i :: 0 <= i < |init| ==> init[i] == s[i];
      KeysAfter(ks, key(s[|s| - 1]))
  }

  /** The keys come in order of first appearance: each key occurs in the list, a key that
      is not listed occurs nowhere, and a listed key first occurs before every later one. */
  lemma {:induction false} KeysInOrder<T>(s: seq<T>, key: T -> string)
    ensures forall a :: 0 <= a < |Keys(s, key)| ==> FirstIndex(s, key, Keys(s, key)[a]) < |s|
    ensures forall k :: k !in Keys(s, key) ==> FirstIndex(s, key, k) == |s|
    ensures forall a, b :: 0 <= a < b < |Keys(s, key)| ==>
      FirstIndex(s, key, Keys(s, key)[a]) < FirstIndex(s, key, Keys(s, key)[b])
    decreases |s|
  {
    if |s| > 0 {
      var init := s[..|s| - 1];
      var x := s[|s| - 1];
      assert s == init + [x];
      KeysInOrder(init, key);
      var ks := Keys(init, key);
      assert Keys(s, key) == KeysAfter(ks, key(x));
      KeysStillOccur(init, x, key, ks);
      KeysStillAbsent(init, x, key, ks);
      assert key(x) !in ks ==> FirstIndex(init, key, key(x)) == |init|;
      KeysStayInOrder(init, x, key, ks);
    }
  }

  /** The keys of `Keys` one element longer: the old ones, and the new element's key last
      when it is new. */
  function KeysAfter(ks: seq<string>, k: string): seq<string>
  {
    if k in ks then ks else ks + [k]
  }

  /** Every key kept by the step of `Keys` occurs in the longer list. */
  lemma KeysStillOccur<T>(init: seq<T>, x: T, key: T -> string, ks: seq<string>)
    requires forall a :: 0 <= a < |ks| ==> FirstIndex(init, key, ks[a]) < |init|
    ensures var r := KeysAfter(ks, key(x));
      forall a :: 0 <= a < |r| ==> FirstIndex(init + [x], key, r[a]) < |init| + 1
  {
    var r := KeysAfter(ks, key(x));
    forall a | 0 <= a < |r|
      ensures FirstIndex(init + [x], key, r[a]) < |init| + 1
    {
      if a < |ks| {
        assert r[a] == ks[a];
        FirstIndexAppend(init, x, key, ks[a]);
      } else {
        assert r[a] == key(x);
        FirstIndexAppend(init, x, key, key(x));
      }
    }
  }

  /** A key left out by the step of `Keys` occurs nowhere in the longer list. */
  lemma KeysStillAbsent<T>(init: seq<T>, x: T, key: T -> string, ks: seq<string>)
    requires forall k :: k !in ks ==> FirstIndex(init, key, k) == |init|
    ensures var r := KeysAfter(ks, key(x));
      forall k :: k !in r ==> FirstIndex(init + [x], key, k) == |init| + 1
  {
    var r := KeysAfter(ks, key(x));
    forall k | k !in r
      ensures FirstIndex(init + [x], key, k) == |init| + 1
    {
      FirstIndexAppend(init, x, key, k);
    }
  }

  /** The step of `Keys`: a key met for the first time goes after all the keys met before. */
  lemma KeysStayInOrder<T>(init: seq<T>, x: T, key: T -> string, ks: seq<string>)
    requires forall a :: 0 <= a < |ks| ==> FirstIndex(init, key, ks[a]) < |init|
    requires key(x) !in ks ==> FirstIndex(init, key, key(x)) == |init|
    requires forall a, b :: 0 <= a < b < |ks| ==> FirstIndex(init, key, ks[a]) < FirstIndex(init, key, ks[b])
    ensures var r := KeysAfter(ks, key(x));
      forall a, b :: 0 <= a < b < |r| ==> FirstIndex(init + [x], key, r[a]) < FirstIndex(init + [x], key, r[b])
  {
    OldKeysKeepOrder(init, x, key, ks);
    if key(x) !in ks {
      NewKeyComesLast(init, x, key, ks);
      OrderWithNewKey(init + [x], key, ks, key(x));
    }
  }

  /** Keys in order of first appearance, followed by a key that first occurs after all of
      them, are still in that order. */
  lemma OrderWithNewKey<T>(s: seq<T>, key: T -> string, ks: seq<string>, k: string)
    requires forall a, b :: 0 <= a < b < |ks| ==> FirstIndex(s, key, ks[a]) < FirstIndex(s, key, ks[b])
    requires forall a :: 0 <= a < |ks| ==> FirstIndex(s, key, ks[a]) < FirstIndex(s, key, k)
    ensures forall a, b :: 0 <= a < b < |ks + [k]| ==> FirstIndex(s, key, (ks + [k])[a]) < FirstIndex(s, key, (ks + [k])[b])
  {
    var r := ks + [k];
    forall a, b | 0 <= a < b < |r|
      ensures FirstIndex(s, key, r[a]) < FirstIndex(s, key, r[b])
    {
      assert r[a] == ks[a];
      if b < |ks| {
        assert r[b] == ks[b];
      } else {
        assert r[b] == k;
      }
    }
  }

  /** Keys met before keep their relative order after an append. */
  lemma OldKeysKeepOrder<T>(init: seq<T>, x: T, key: T -> string, ks: seq<string>)
    requires forall a, b :: 0 <= a < b < |ks| ==> FirstIndex(init, key, ks[a]) < FirstIndex(init, key, ks[b])
    ensures forall a, b :: 0 <= a < b < |ks| ==> FirstIndex(init + [x], key, ks[a]) < FirstIndex(init + [x], key, ks[b])
  {
    forall a, b | 0 <= a < b < |ks|
      ensures FirstIndex(init + [x], key, ks[a]) < FirstIndex(init + [x], key, ks[b])
    {
      FirstStaysBefore(init, x, key, ks[a], ks[b]);
    }
  }

  /** A new key first occurs after every key met before. */
  lemma NewKeyComesLast<T>(init: seq<T>, x: T, key: T -> string, ks: seq<string>)
    requires forall a :: 0 <= a < |ks| ==> FirstIndex(init, key, ks[a]) < |init|
    requires FirstIndex(init, key, key(x)) == |init|
    ensures forall a :: 0 <= a < |ks| ==> FirstIndex(init + [x], key, ks[a]) < FirstIndex(init + [x], key, key(x))
  {
    forall a | 0 <= a < |ks|
      ensures FirstIndex(init + [x], key, ks[a]) < FirstIndex(init + [x], key, key(x))
    {
      FirstStaysBefore(init, x, key, ks[a], key(x));
    }
  }

  /** A key whose first occurrence comes earlier still comes earlier after an append. */
  lemma FirstStaysBefore<T>(init: seq<T>, x: T, key: T -> string, ka: string, kb: string)
    requires FirstIndex(init, key, ka) < FirstIndex(init, key, kb)
    ensures FirstIndex(init + [x], key, ka) < FirstIndex(init + [x], key, kb)
  {
    FirstIndexAppend(init, x, key, ka);
    FirstIndexAppend(init, x, key, kb);
  }

  /** No two groups share a key. */
  predicate DistinctKeys<T>(gs: seq<Group<T>>)
  {
    forall g, h :: 0 <= g < h < |gs| ==> gs[g].key != gs[h].key
  }

  /** The grouped object: one group per distinct key, holding that key's elements in
      their original order. Keys are distinct, no group is empty, every element is filed
      under its own key and only there. */
  function GroupBy<T(==,!new)>(s: seq<T>, key: T -> string): (gs: seq<Group<T>>)
    ensures DistinctKeys(gs)
    ensures forall g :: 0 <= g < |gs| ==> |gs[g].members| > 0
    ensures forall g :: 0 <= g < |gs| ==> IsSubsequence(gs[g].members, s)
    ensures forall g, x :: 0 <= g < |gs| && x in gs[g].members ==> x in s && key(x) == gs[g].key
    ensures forall i :: 0 <= i < |s| ==> Files(gs, key(s[i]), s[i])
    ensures |gs| == |Keys(s, key)| && forall g :: 0 <= g < |gs| ==> gs[g].key == Keys(s, key)[g]
    ensures forall g :: 0 <= g < |gs| ==> gs[g].members == Filter(s, KeyIs(key, gs[g].key))
  {
    var gs := Map(Keys(s, key), k => Group(k, Filter(s, KeyIs(key, k))));
    GroupsFiled(s, key, gs);
    gs
  }

  lemma GroupsFiled<T(!new)>(s: seq<T>, key: T -> string, gs: seq<Group<T>>)
    requires gs == Map(Keys(s, key), k => Group(k, Filter(s, KeyIs(key, k))))
    ensures forall g, h :: 0 <= g < h < |gs| ==> gs[g].key != gs[h].key
    ensures forall g :: 0 <= g < |gs| ==> |gs[g].members| > 0
    ensures forall g :: 0 <= g < |gs| ==> IsSubsequence(gs[g].members, s)
    ensures forall g, x :: 0 <= g < |gs| && x in gs[g].members ==> x in s && key(x) == gs[g].key
    ensures forall i :: 0 <= i < |s| ==> Files(gs, key(s[i]), s[i])
    ensures |gs| == |Keys(s, key)| && forall g :: 0 <= g < |gs| ==> gs[g].key == Keys(s, key)[g]
    ensures forall g :: 0 <= g < |gs| ==> gs[g].members == Filter(s, KeyIs(key, gs[g].key))
  {
    GroupsNonEmpty(s, key, gs);
    GroupsFileAll(s, key, gs);
    GroupsKeepOrder(s, key, gs);
    GroupsOnlyTheirKey(s, key, gs);
    GroupsFollowKeys(s, key, gs);
  }

  lemma GroupsFollowKeys<T(!new)>(s: seq<T>, key: T -> string, gs: seq<Group<T>>)
    requires gs == Map(Keys(s, key), k => Group(k, Filter(s, KeyIs(key, k))))
    ensures |gs| == |Keys(s, key)| && forall g :: 0 <= g < |gs| ==> gs[g].key == Keys(s, key)[g]
    ensures forall g :: 0 <= g < |gs| ==> gs[g].members == Filter(s, KeyIs(key, gs[g].key))
  {
    var ks := Keys(s, key);
    forall g | 0 <= g < |gs|
      ensures gs[g].key == ks[g] && gs[g].members == Filter(s, KeyIs(key, gs[g].key))
    {
      assert gs[g] == Group(ks[g], Filter(s, KeyIs(key, ks[g])));
    }
  }

  lemma GroupsKeepOrder<T(!new)>(s: seq<T>, key: T -> string, gs: seq<Group<T>>)
    requires gs == Map(Keys(s, key), k => Group(k, Filter(s, KeyIs(key, k))))
    ensures forall g :: 0 <= g < |gs| ==> IsSubsequence(gs[g].members, s)
  {
    forall g | 0 <= g < |gs|
      ensures IsSubsequence(gs[g].members, s)
    {
      assert gs[g].members == Filter(s, KeyIs(key, gs[g].key));
    }
  }

  lemma GroupsOnlyTheirKey<T(!new)>(s: seq<T>, key: T -> string, gs: seq<Group<T>>)
    requires gs == Map(Keys(s, key), k => Group(k, Filter(s, KeyIs(key, k))))
    ensures forall g, x :: 0 <= g < |gs| && x in gs[g].members ==> x in s && key(x) == gs[g].key
  {
    forall g, x | 0 <= g < |gs| && x in gs[g].members
      ensures x in s && key(x) == gs[g].key
    {
      assert gs[g].members == Filter(s, KeyIs(key, gs[g].key));
      assert KeyIs(key, gs[g].key)(x);
    }
  }

  lemma GroupsNonEmpty<T(!new)>(s: seq<T>, key: T -> string, gs: seq<Group<T>>)
    requires gs == Map(Keys(s, key), k => Group(k, Filter(s, KeyIs(key, k))))
    ensures forall g :: 0 <= g < |gs| ==> |gs[g].members| > 0
  {
    forall g | 0 <= g < |gs|
      ensures |gs[g].members| > 0
    {
      GroupNonEmpty(s, key, Keys(s, key)[g]);
    }
  }

  lemma GroupsFileAll<T(!new)>(s: seq<T>, key: T -> string, gs: seq<Group<T>>)
    requires gs == Map(Keys(s, key), k => Group(k, Filter(s, KeyIs(key, k))))
    ensures forall i :: 0 <= i < |s| ==> Files(gs, key(s[i]), s[i])
  {
    GroupsCover(s, key, gs);
    GroupsHoldTheirKey(s, key, gs);
    forall i | 0 <= i < |s| ensures Files(gs, key(s[i]), s[i]) {
      var g :| 0 <= g < |gs| && gs[g].key == key(s[i]);
      assert s[i] in gs[g].members;
    }
  }

  lemma GroupsCover<T(!new)>(s: seq<T>, key: T -> string, gs: seq<Group<T>>)
    requires gs == Map(Keys(s, key), k => Group(k, Filter(s, KeyIs(key, k))))
    ensures forall i :: 0 <= i < |s| ==> exists g :: 0 <= g < |gs| && gs[g].key == key(s[i])
  {
    forall i | 0 <= i < |s|
      ensures exists g :: 0 <= g < |gs| && gs[g].key == key(s[i])
    {
      var g := KeyIndex(s, key, i);
      assert gs[g].key == key(s[i]);
    }
  }

  lemma GroupsHoldTheirKey<T(!new)>(s: seq<T>, key: T -> string, gs: seq<Group<T>>)
    requires gs == Map(Keys(s, key), k => Group(k, Filter(s, KeyIs(key, k))))
    ensures forall g, i :: 0 <= g < |gs| && 0 <= i < |s| && key(s[i]) == gs[g].key ==> s[i] in gs[g].members
  {
    forall g, i | 0 <= g < |gs| && 0 <= i < |s| && key(s[i]) == gs[g].key
      ensures s[i] in gs[g].members
    {
      KeyedInFilter(s, key, gs[g].key, i);
    }
  }

  /** An element with key `k` is in the filter by key `k`. */
  lemma KeyedInFilter<T(!new)>(s: seq<T>, key: T -> string, k: string, i: nat)
    requires i < |s| && key(s[i]) == k
    ensures s[i] in Filter(s, KeyIs(key, k))
  {
    assert KeyIs(key, k)(s[i]);
    FilterKeeps(s, KeyIs(key, k), i);
  }

  lemma GroupNonEmpty<T(!new)>(s: seq<T>, key: T -> string, k: string)
    requires k in Keys(s, key)
    ensures |Filter(s, KeyIs(key, k))| > 0
  {
    var i :| 0 <= i < |s| && key(s[i]) == k;
    assert KeyIs(key, k)(s[i]);
    assert s[i] in Filter(s, KeyIs(key, k));
  }

  lemma KeyIndex<T(!new)>(s: seq<T>, key: T -> string, i: nat) returns (g: nat)
    requires i < |s|
    ensures g < |Keys(s, key)| && Keys(s, key)[g] == key(s[i])
  {
    var ks := Keys(s, key);
    assert key(s[i]) in ks;
    g :| 0 <= g < |ks| && ks[g] == key(s[i]);
  }

  /** The number of elements across a list of groups. */
  function MembersTotal<T>(gs: seq<Group<T>>): nat
  {
    if |gs| == 0 then 0 else MembersTotal(gs[..|gs| - 1]) + |gs[|gs| - 1].members|
  }

  /** The number of elements of `s` whose key is among `ks`, key by key. */
  ghost function CountOver<T(!new)>(ks: seq<string>, s: seq<T>, key: T -> string): nat
  {
    if |ks| == 0 then 0
    else CountOver(ks[..|ks| - 1], s, key) + |Filter(s, KeyIs(key, ks[|ks| - 1]))|
  }

  lemma {:induction false} CountOverAppend<T(!new)>(ks: seq<string>, s: seq<T>, x: T, key: T -> string)
    requires forall i, j :: 0 <= i < j < |ks| ==> ks[i] != ks[j]
    ensures CountOver(ks, s + [x], key) == CountOver(ks, s, key) + (if key(x) in ks then 1 else 0)
    decreases |ks|
  {
    if |ks| > 0 {
      var init := ks[..|ks| - 1];
      var k := ks[|ks| - 1];
      CountOverAppend(init, s, x, key);
      FilterAppend(s, [x], KeyIs(key, k));
      assert key(x) in ks <==> key(x) in init || key(x) == k;
      assert key(x) in init ==> key(x) != k;
    }
  }

  lemma {:induction false} CountOverKeys<T(!new)>(s: seq<T>, key: T -> string)
    ensures CountOver(Keys(s, key), s, key) == |s|
    decreases |s|
  {
    if |s| > 0 {
      var init := s[..|s| - 1];
      var x := s[|s| - 1];
      assert s == init + [x];
      var ks := Keys(init, key);
      CountOverKeys(init, key);
      CountOverAppend(ks, init, x, key);
      if key(x) !in ks {
        var ks' := ks + [key(x)];
        assert ks'[..|ks'| - 1] == ks;
        FilterAppend(init, [x], KeyIs(key, key(x)));
        assert |Filter(init, KeyIs(key, key(x)))| == 0;
      }
    }
  }

  lemma {:induction false} MembersTotalOfKeys<T(!new)>(ks: seq<string>, s: seq<T>, key: T -> string)
    ensures MembersTotal(Map(ks, k => Group(k, Filter(s, KeyIs(key, k))))) == CountOver(ks, s, key)
    decreases |ks|
  {
    if |ks| > 0 {
      var f := k => Group(k, Filter(s, KeyIs(key, k)));
      var init := ks[..|ks| - 1];
      MembersTotalOfKeys(init, s, key);
      assert Map(ks, f)[..|ks| - 1] == Map(init, f);
    }
  }

  /** Grouping partitions the list: the groups together hold exactly `|s|` elements. */
  lemma GroupByPreservesCount<T(!new)>(s: seq<T>, key: T -> string)
    ensures MembersTotal(GroupBy(s, key)) == |s|
  {
    MembersTotalOfKeys(Keys(s, key), s, key);
    CountOverKeys(s, key);
  }
}

=== FILE: notifications.dfy ===
/** The notification store shared by the pages: the list, the unread badge count, the
    realtime insert, "mark all as read", and the reset when nobody is signed in. */
module Notifications {
  import opened Wrappers
  import opened Seqs
  import opened Entities

  /** A notification as listed; only its id and read flag matter here. */
  datatype Notification = Notification(id: string, isRead: bool)

  /** The store: the notifications, newest first, and the badge count. */
  datatype State = State(notifications: seq<Notification>, unreadCount: nat)

  /** How a notifications GET ended: a body (possibly null) or a rejected request. */
  datatype Response = Body(data: Option<seq<Notification>>) | RequestFailed

  /** The empty store, before anything is fetched and after sign-out. */
  const Empty := State([], 0)

  /** Whether a notification is still unread. */
  predicate IsUnread(n: Notification)
  {
    !n.isRead
  }

  /** The unread notifications of a list, in order. */
  function UnreadOf(list: seq<Notification>): (r: seq<Notification>)
    ensures forall n :: n in r <==> n in list && !n.isRead
    ensures |r| <= |list|
  {
    Filter(list, IsUnread)
  }

  /** The badge never claims more unread notifications than are listed. */
  predicate CountBounded(s: State)
  {
    s.unreadCount <= |s.notifications|
  }

  /** `fetchNotifications`: with nobody signed in nothing happens, a failed request is
      swallowed, and a body replaces the list and recounts the unread ones. A null body
      empties the list and resets the count. */
  function Fetch(s: State, signedIn: bool, response: Response): (r: State)
    ensures !signedIn || response.RequestFailed? ==> r == s
    ensures signedIn && response.Body? ==>
      r.notifications == response.data.GetOr([])
      && r.unreadCount == |UnreadOf(response.data.GetOr([]))|
    ensures signedIn && response.Body? ==> CountBounded(r)
  {
    if !signedIn then s
    else match response
      case RequestFailed => s
      case Body(data) =>
        var list := data.GetOr([]);
        State(list, |UnreadOf(list)|)
  }

  /** `fetchNotifications` as written: `setNotifications(res.data || [])` runs, and then
      `res.data.filter(...)` throws on a null body before the count is reset, so the
      list empties while the badge keeps its old count. */
  function FetchAsWritten(s: State, signedIn: bool, response: Response): (r: State)
    ensures response != Body(None) ==> r == Fetch(s, signedIn, response)
    ensures signedIn && response == Body(None) ==> r == State([], s.unreadCount)
  {
    if signedIn && response == Body(None) then State([], s.unreadCount)
    else Fetch(s, signedIn, response)
  }

  /** A store with one unread notification receives a null body: the badge still shows 1
      over an empty list. */
  lemma NullBodyLeavesStaleCount()
    ensures var before := State([Notification("n1", false)], 1);
      var after := FetchAsWritten(before, true, Body(None));
      && CountBounded(before)
      && after.notifications == []
      && after.unreadCount == 1
      && !CountBounded(after)
      && after != Fetch(before, true, Body(None))
  {
  }

  /** The realtime insert handler: the new notification goes in front and the badge goes
      up by exactly one; the rest of the list is unchanged. */
  function Insert(s: State, n: Notification): (r: State)
    ensures |r.notifications| == |s.notifications| + 1
    ensures r.notifications[0] == n && r.notifications[1..] == s.notifications
    ensures r.unreadCount == s.unreadCount + 1
    ensures CountBounded(s) ==> CountBounded(r)
  {
    State([n] + s.notifications, s.unreadCount + 1)
  }

  /** The sign-out effect: the store is emptied. */
  function SignedOut(s: State): (r: State)
    ensures r.notifications == [] && r.unreadCount == 0
    ensures CountBounded(r)
  {
    Empty
  }

  /** `markAllAsRead`: one read request per unread notification, in list order, and
      none for those already read. */
  function MarkAllAsRead(s: State): (r: seq<Request>)
    ensures |r| == |UnreadOf(s.notifications)|
    ensures forall k :: 0 <= k < |r| ==> r[k].MarkRead?
    ensures forall k :: 0 <= k < |r| ==>
      exists n :: n in s.notifications && !n.isRead && r[k] == MarkRead(n.id)
    ensures forall n :: n in s.notifications && !n.isRead ==> MarkRead(n.id) in r
  {
    var unread := UnreadOf(s.notifications);
    var r := Map(unread, (n: Notification) => MarkRead(n.id));
    assert forall k :: 0 <= k < |r| ==> unread[k] in unread && r[k] == MarkRead(unread[k].id);
    assert forall n :: n in unread ==> MarkRead(n.id) in r by {
      forall n | n in unread ensures MarkRead(n.id) in r {
        var k :| 0 <= k < |unread| && unread[k] == n;
        assert r[k] == MarkRead(n.id);
      }
    }
    r
  }

  /** Every step keeps the badge within the list: fetch establishes the bound from any
      state, insert and sign-out preserve it. */
  lemma CountStaysBounded(s: State, signedIn: bool, response: Response, n: Notification)
    requires CountBounded(s)
    ensures CountBounded(Fetch(s, signedIn, response))
    ensures CountBounded(Insert(s, n))
    ensures CountBounded(SignedOut(s))
  {
  }

  /** Straight after a fetch, "mark all as read" sends exactly as many requests as the
      badge shows. */
  lemma MarkAllMatchesBadge(s: State, data: seq<Notification>)
    ensures var fetched := Fetch(s, true, Body(Some(data)));
      |MarkAllAsRead(fetched)| == fetched.unreadCount
  {
  }

  /** Once everything listed is read, "mark all as read" sends nothing. */
  lemma NothingToMark(s: State)
    requires forall k :: 0 <= k < |s.notifications| ==> s.notifications[k].isRead
    ensures MarkAllAsRead(s) == []
  {
    if |UnreadOf(s.notifications)| > 0 {
      var n := UnreadOf(s.notifications)[0];
      assert n in UnreadOf(s.notifications);
    }
  }
}

=== FILE: profile_account.dfy ===
/** The account page: the dietary-preference text field (joined on load, parsed on
    save), the trip count, the lifetime spend and the recent-trips list. */
module ProfileAccount {
  import opened Wrappers
  import opened Seqs
  import opened Text
  import Coerce

  /** The profile as loaded. */
  datatype Profile = Profile(fullName: Option<string>, dietaryPreferences: Option<seq<string>>)

  /** A past shopping trip; `totalSpent` holds `Number(total_spent)`, `None` when NaN. */
  datatype Trip = Trip(id: string, totalSpent: Option<real>)

  /** The edit form's two text fields. */
  datatype ProfileForm = ProfileForm(nameInput: string, preferencesInput: string)

  /** The body of the profile PUT. */
  datatype ProfileUpdate = ProfileUpdate(fullName: string, dietaryPreferences: seq<string>)

  /** The header figures: how many trips, and how much was spent over all of them. */
  datatype Stats = Stats(tripCount: nat, totalSpent: real)

  /** The separator the field is joined with, and the one it is split on. */
  const JoinSeparator := ", "
  const SplitSeparator := ","

  /** An entry survives parsing when it is not empty. */
  function IsEntry(): string -> bool
  {
    (p: string) => p != ""
  }

  /** An entry the field can carry unchanged: non-empty, trimmed and comma-free. */
  predicate CleanEntry(p: string)
  {
    p != "" && IsTrimmed(p) && ',' !in p
  }

  /** `input.split(",").map(p => p.trim()).filter(p => p)`. Every entry that comes out
      is clean, and text without commas yields its trimmed self, or nothing if blank. */
  function ParsePreferences(input: string): (r: seq<string>)
    ensures forall i :: 0 <= i < |r| ==> CleanEntry(r[i])
  {
    var trimmed := Map(Split(input, SplitSeparator), Trim);
    TrimmedPiecesCommaFree(input);
    Filter(trimmed, IsEntry())
  }

  /** Text without commas parses to its trimmed self, or to nothing when blank. */
  lemma ParseWithoutComma(input: string)
    requires ',' !in input
    ensures ParsePreferences(input) == (if Trim(input) == "" then [] else [Trim(input)])
  {
    NoCommaParse(input);
  }

  /** Each trimmed piece of the split is trimmed and free of commas. */
  lemma TrimmedPiecesCommaFree(input: string)
    ensures forall x :: x in Map(Split(input, SplitSeparator), Trim) ==> IsTrimmed(x) && ',' !in x
  {
    var parts := Split(input, SplitSeparator);
    forall j | 0 <= j < |parts| ensures ',' !in Trim(parts[j]) {
      ContainsChar(parts[j], ',');
      TrimKeepsOut(parts[j], ',');
    }
  }

  /** Text without a comma is a single piece. */
  lemma NoCommaParse(input: string)
    ensures ',' !in input ==> Split(input, SplitSeparator) == [input]
  {
    if ',' !in input {
      ContainsChar(input, ',');
      SplitFirst(input, SplitSeparator);
    }
  }

  /** `(prefs || []).join(", ")`: the field's text when the form opens. */
  function JoinPreferences(prefs: Option<seq<string>>): (r: string)
    ensures prefs.None? || prefs.value == [] ==> r == ""
    ensures prefs.Some? && |prefs.value| == 1 ==> r == prefs.value[0]
    ensures prefs.Some? && |prefs.value| >= 2 ==>
      r == prefs.value[0] + ", " + Join(prefs.value[1..], JoinSeparator)
  {
    Join(prefs.GetOr([]), JoinSeparator)
  }

  /** Parsing one comma-terminated piece and then the rest. */
  lemma ParseCons(a: string, b: string)
    requires ',' !in a
    ensures ParsePreferences(a + SplitSeparator + b)
      == (if Trim(a) == "" then [] else [Trim(a)]) + ParsePreferences(b)
  {
    ContainsChar(a, ',');
    SplitAfter(a, SplitSeparator, b);
    var parts := Split(b, SplitSeparator);
    assert Map([a] + parts, Trim) == [Trim(a)] + Map(parts, Trim) by {
      assert ([a] + parts)[1..] == parts;
    }
    assert ([Trim(a)] + Map(parts, Trim))[1..] == Map(parts, Trim);
  }

  /** The padding the field puts before an entry is whitespace. */
  lemma BlankIsSpace(w: string)
    requires w == "" || w == " "
    ensures forall i :: 0 <= i < |w| ==> IsSpace(w[i])
  {
  }

  /** Whitespace alone parses to no entries. */
  lemma ParseBlank(w: string)
    requires w == "" || w == " "
    ensures ParsePreferences(w) == []
  {
    BlankIsSpace(w);
    ParseWithoutComma(w);
    TrimAllSpaces(w);
  }

  /** Whitespace and one clean entry parse to that entry. */
  lemma ParseSingle(w: string, x: string)
    requires w == "" || w == " "
    requires CleanEntry(x)
    ensures ParsePreferences(w + x) == [x]
  {
    BlankIsSpace(w);
    ParseWithoutComma(w + x);
    TrimAfterSpaces(w, x);
  }

  /** Whitespace and a clean entry followed by the separator: the entry, then the rest. */
  lemma ParseHead(w: string, x: string, rest: string)
    requires w == "" || w == " "
    requires CleanEntry(x)
    ensures ParsePreferences(w + (x + JoinSeparator + rest)) == [x] + ParsePreferences(" " + rest)
  {
    BlankIsSpace(w);
    JoinShape(w, x, rest);
    TrimAfterSpaces(w, x);
    assert ',' !in w + x;
    ParseCons(w + x, " " + rest);
  }

  /** A ", " join seen as a "," split point followed by a space. */
  lemma JoinShape(w: string, x: string, rest: string)
    ensures w + (x + JoinSeparator + rest) == (w + x) + SplitSeparator + (" " + rest)
  {
  }

  /** The inductive step: the first entry, then the rest as parsed after its ", ". */
  lemma ParseJoinedStep(w: string, prefs: seq<string>)
    requires w == "" || w == " "
    requires |prefs| >= 2 && CleanEntry(prefs[0])
    requires ParsePreferences(" " + Join(prefs[1..], JoinSeparator)) == prefs[1..]
    ensures ParsePreferences(w + Join(prefs, JoinSeparator)) == prefs
  {
    var rest := Join(prefs[1..], JoinSeparator);
    JoinFirst(w, prefs);
    ParseHead(w, prefs[0], rest);
    HeadThenTail(prefs);
  }

  /** A padded join of two or more entries is the padding, the first entry, the separator
      and the joined rest. */
  lemma JoinFirst(w: string, prefs: seq<string>)
    requires |prefs| >= 2
    ensures w + Join(prefs, JoinSeparator) == w + (prefs[0] + JoinSeparator + Join(prefs[1..], JoinSeparator))
  {
  }

  /** A non-empty list is its first entry followed by the rest. */
  lemma HeadThenTail(prefs: seq<string>)
    requires |prefs| > 0
    ensures [prefs[0]] + prefs[1..] == prefs
  {
  }

  /** Parsing whitespace followed by a joined list of clean entries gives the list back. */
  lemma {:induction false} ParsePadded(w: string, prefs: seq<string>)
    requires w == "" || w == " "
    requires forall i :: 0 <= i < |prefs| ==> CleanEntry(prefs[i])
    ensures ParsePreferences(w + Join(prefs, JoinSeparator)) == prefs
    decreases |prefs|
  {
    if |prefs| == 0 {
      ParseBlank(w);
    } else if |prefs| == 1 {
      ParseSingle(w, prefs[0]);
    } else {
      CleanTail(prefs);
      ParsePadded(" ", prefs[1..]);
      ParseJoinedStep(w, prefs);
    }
  }

  /** The entries after the first of a clean list are clean. */
  lemma CleanTail(prefs: seq<string>)
    requires |prefs| > 0
    requires forall i :: 0 <= i < |prefs| ==> CleanEntry(prefs[i])
    ensures forall i :: 0 <= i < |prefs| - 1 ==> CleanEntry(prefs[1..][i])
  {
    forall i | 0 <= i < |prefs| - 1
      ensures CleanEntry(prefs[1..][i])
    {
      assert prefs[1..][i] == prefs[i + 1];
    }
  }

  /** Join-then-parse round-trips: clean entries come back exactly, in order. */
  lemma ParseJoinRoundTrip(prefs: seq<string>)
    requires forall i :: 0 <= i < |prefs| ==> CleanEntry(prefs[i])
    ensures ParsePreferences(JoinPreferences(Some(prefs))) == prefs
  {
    ParsePadded("", prefs);
    assert "" + Join(prefs, JoinSeparator) == Join(prefs, JoinSeparator);
  }

  /** The form as the profile fills it on load. */
  function LoadForm(profile: Profile): (f: ProfileForm)
    ensures f.nameInput == Coerce.TextOr(profile.fullName, "")
    ensures f.preferencesInput == JoinPreferences(profile.dietaryPreferences)
    ensures profile.dietaryPreferences.None? ==> f.preferencesInput == ""
  {
    ProfileForm(Coerce.TextOr(profile.fullName, ""), JoinPreferences(profile.dietaryPreferences))
  }

  /** `handleSaveProfile`: the name as typed and the parsed preferences. */
  function SaveRequest(form: ProfileForm): (u: ProfileUpdate)
    ensures u.fullName == form.nameInput
    ensures u.dietaryPreferences == ParsePreferences(form.preferencesInput)
    ensures forall i :: 0 <= i < |u.dietaryPreferences| ==> CleanEntry(u.dietaryPreferences[i])
  {
    ProfileUpdate(form.nameInput, ParsePreferences(form.preferencesInput))
  }

  /** Loading the profile into the form and saving it untouched keeps clean preferences as they were. */
  lemma SaveUneditedKeepsPreferences(profile: Profile)
    requires forall i :: 0 <= i < |profile.dietaryPreferences.GetOr([])| ==>
      CleanEntry(profile.dietaryPreferences.GetOr([])[i])
    ensures SaveRequest(LoadForm(profile)).dietaryPreferences == profile.dietaryPreferences.GetOr([])
  {
    ParseJoinRoundTrip(profile.dietaryPreferences.GetOr([]));
    assert JoinPreferences(profile.dietaryPreferences) == JoinPreferences(Some(profile.dietaryPreferences.GetOr([])));
  }

  /** What a trip adds to the lifetime spend: `Number(total_spent) || 0`. */
  function TripSpend(t: Trip): real
  {
    Coerce.NumberOr(t.totalSpent, 0.0)
  }

  /** The header figures over the loaded history (`historyRes.data || []`). */
  function AccountStats(history: seq<Trip>): (r: Stats)
    ensures r.tripCount == |history|
    ensures |history| == 0 ==> r.totalSpent == 0.0
    ensures (forall i :: 0 <= i < |history| ==> history[i].totalSpent.GetOr(0.0) >= 0.0) ==> r.totalSpent >= 0.0
  {
    SpendNonNegative(history);
    Stats(|history|, Sum(history, TripSpend))
  }

  /** Non-negative recorded totals give a non-negative lifetime spend. */
  lemma SpendNonNegative(history: seq<Trip>)
    ensures (forall i :: 0 <= i < |history| ==> history[i].totalSpent.GetOr(0.0) >= 0.0) ==>
      Sum(history, TripSpend) >= 0.0
  {
    if forall i :: 0 <= i < |history| ==> history[i].totalSpent.GetOr(0.0) >= 0.0 {
      SumNonNegative(history, TripSpend);
    }
  }

  /** One more trip adds one to the count and its own spend to the total; a trip with no
      readable total adds nothing. */
  lemma StatsAppend(history: seq<Trip>, t: Trip)
    ensures AccountStats(history + [t]).tripCount == AccountStats(history).tripCount + 1
    ensures AccountStats(history + [t]).totalSpent == AccountStats(history).totalSpent + TripSpend(t)
    ensures t.totalSpent.None? ==> AccountStats(history + [t]).totalSpent == AccountStats(history).totalSpent
  {
    SumAppend(history, [t], TripSpend);
  }

  /** `history.slice(0, 5)`: the first five trips, or all of them when fewer. */
  function RecentTrips(history: seq<Trip>): (r: seq<Trip>)
    ensures |r| == if |history| < 5 then |history| else 5
    ensures forall i :: 0 <= i < |r| ==> r[i] == history[i]
    ensures |history| <= 5 ==> r == history
  {
    if |history| < 5 then history else history[..5]
  }

  /** Trips after the fifth never show in the recent list. */
  lemma RecentTripsIgnoreOlder(history: seq<Trip>, older: seq<Trip>)
    requires |history| >= 5
    ensures RecentTrips(history + older) == RecentTrips(history)
  {
    assert (history + older)[..5] == history[..5];
  }
}

=== FILE: protected_route.dfy ===
/** The guard around every signed-in page: wait for the session, send visitors with no
    account and no guest invite to the login page, and render the page otherwise. */
module ProtectedRoute {
  import opened Wrappers
  import Coerce
  import Api

  /** What the guard renders. */
  datatype Outcome =
    | Loading                            // the full-screen loader
    | Redirect(to: string, from: string) // `<Navigate to=... state={{ from }} replace />`
    | Render                             // the protected children

  /** The login page a visitor is sent to. */
  const LoginPath := "/login"

  /** The guard's decision from the session flag, the signed-in user (by id), the stored
      guest invite and the current location. */
  function Guard(sessionLoading: bool, user: Option<string>, guestInvite: Option<string>, location: string)
    : (r: Outcome)
    ensures sessionLoading ==> r == Loading
    ensures !sessionLoading && user.None? && !Coerce.Truthy(guestInvite) ==> r == Redirect(LoginPath, location)
    ensures !sessionLoading && user.Some? ==> r == Render
    ensures !sessionLoading && Coerce.Truthy(guestInvite) ==> r == Render
    ensures r.Redirect? ==> r.to == LoginPath && r.from == location
  {
    if sessionLoading then Loading
    else if user.None? && !Coerce.Truthy(guestInvite) then Redirect(LoginPath, location)
    else Render
  }

  /** A guest (no account, but an invite) gets past the guard, and the requests the page
      then makes carry that invite: the same stored value opens the page and
      authorizes its API calls. */
  lemma GuestPagesAreAuthorized(invite: string, location: string, headers: map<string, string>)
    requires invite != ""
    ensures Guard(false, None, Some(invite), location) == Render
    ensures Api.Authorize(headers, None, Some(invite))[Api.AuthorizationHeader] == "Invite " + invite
  {
  }

  /** The guard only sends someone away when the interceptor would have nothing to put
      in the Authorization header: no token and no invite. */
  lemma RedirectOnlyWithoutCredentials(user: Option<string>, guestInvite: Option<string>, location: string,
                                       headers: map<string, string>)
    requires Guard(false, user, guestInvite, location).Redirect?
    ensures user.None? && !Coerce.Truthy(guestInvite)
    ensures Api.Authorize(headers, None, guestInvite) == headers
  {
  }
}

=== FILE: recipes.dfy ===
/** The recipe list: the search box and the veg / non-veg toggle, the legacy image
    link carried inside a description, the match-percentage bar, and the card
    expand/collapse state with its cache of fetched details. */
module Recipes {
  import opened Wrappers
  import opened Seqs
  import Text
  import Coerce
  import opened Entities

  /** A recipe as listed. `matchPercentage` is absent until the pantry matcher ran; the
      server can also send it as JSON `null` (what a NaN percentage serialises to). */
  datatype Recipe = Recipe(
    id: string,
    title: string,
    description: Option<string>,
    dietaryTags: Option<seq<string>>,
    matchPercentage: Match)

  /** The `matchPercentage` field: missing (`undefined`), `null`, or a number. */
  datatype Match = Absent | Null | Pct(value: real)

  /** The three positions of the diet toggle. */
  datatype Diet = All | Veg | NonVeg

  /** The search box keeps a recipe when the lower-cased query occurs in its lower-cased
      title or in its lower-cased description, a missing description reading as "". */
  predicate MatchesSearch(r: Recipe, query: string)
  {
    SearchHit(r.title, query) || SearchHit(Coerce.TextOr(r.description, ""), query)
  }

  /** `text.toLowerCase().includes(query.toLowerCase())`. */
  predicate SearchHit(text: string, query: string)
  {
    Text.Contains(Text.Lower(text), Text.Lower(query))
  }

  /** A recipe is vegetarian when its tags include "Vegetarian". */
  predicate IsVegetarian(r: Recipe)
  {
    r.dietaryTags.Some? && "Vegetarian" in r.dietaryTags.value
  }

  /** Whether the toggle position lets a recipe through. */
  predicate DietAllows(diet: Diet, r: Recipe)
  {
    match diet
    case All => true
    case Veg => IsVegetarian(r)
    case NonVeg => !IsVegetarian(r)
  }

  /** The predicate the list filter applies for a query and a toggle position. */
  function Shown(query: string, diet: Diet): Recipe -> bool
  {
    (r: Recipe) => MatchesSearch(r, query) && DietAllows(diet, r)
  }

  /** The cards on screen: the recipes passing search and diet filter, in list order. */
  function Visible(recipes: seq<Recipe>, query: string, diet: Diet): (r: seq<Recipe>)
    ensures forall x :: x in r <==>
      && x in recipes
      && MatchesSearch(x, query)
      && DietAllows(diet, x)
    ensures IsSubsequence(r, recipes)
  {
    Filter(recipes, Shown(query, diet))
  }

  /** An empty query and the "All" position show every recipe, in order. */
  lemma EmptySearchShowsAll(recipes: seq<Recipe>)
    ensures Visible(recipes, "", All) == recipes
  {
    forall i | 0 <= i < |recipes| ensures Shown("", All)(recipes[i]) {
      Text.ContainsMeaning(Text.Lower(recipes[i].title), Text.Lower(""));
      assert SearchHit(recipes[i].title, "");
    }
    FilterAll(recipes, Shown("", All));
  }

  /** "Veg" and "Non-Veg" split the search result: no recipe is in both, every search
      match is in one, and the two card counts add up to the "All" count. */
  lemma {:induction false} DietPartition(recipes: seq<Recipe>, query: string)
    ensures forall x :: x in Visible(recipes, query, All) <==>
      x in Visible(recipes, query, Veg) || x in Visible(recipes, query, NonVeg)
    ensures forall x :: !(x in Visible(recipes, query, Veg) && x in Visible(recipes, query, NonVeg))
    ensures |Visible(recipes, query, Veg)| + |Visible(recipes, query, NonVeg)| == |Visible(recipes, query, All)|
    decreases |recipes|
  {
    if |recipes| > 0 {
      DietPartition(recipes[1..], query);
    }
  }

  /** The filter never reorders: the cards for two concatenated lists are the cards for
      the first followed by the cards for the second, so the matcher's ranking is kept. */
  lemma VisibleKeepsOrder(front: seq<Recipe>, back: seq<Recipe>, query: string, diet: Diet)
    ensures Visible(front + back, query, diet) == Visible(front, query, diet) + Visible(back, query, diet)
  {
    FilterAppend(front, back, Shown(query, diet));
  }

  /** The delimiter that carries an image link inside a description. */
  const ImageDelimiter := "|||IMAGE:"

  /** What a card shows of a description: the text before the delimiter and the link. */
  datatype Banner = Banner(clean: string, image: Option<string>)

  /** `(description || "").split("|||IMAGE:")`: the first piece is the text, the second
      piece (when there is one and it is non-empty) is the image link. */
  function DecodeDescription(description: Option<string>): (r: Banner)
    ensures var text := Coerce.TextOr(description, "");
      && (!Text.Contains(text, ImageDelimiter) ==> r == Banner(text, None))
      && (Text.Contains(text, ImageDelimiter) ==> r.clean == text[..Text.IndexOf(text, ImageDelimiter).value])
    ensures var text := Coerce.TextOr(description, "");
      Text.Contains(text, ImageDelimiter) ==>
        var second := SecondSegment(text[Text.IndexOf(text, ImageDelimiter).value + |ImageDelimiter|..]);
        r.image == if second == "" then None else Some(second)
    ensures !Text.Contains(r.clean, ImageDelimiter)
    ensures r.image.Some? ==> r.image.value != "" && !Text.Contains(r.image.value, ImageDelimiter)
  {
    var text := Coerce.TextOr(description, "");
    var parts := Text.Split(text, ImageDelimiter);
    Text.SplitFirst(text, ImageDelimiter);
    ImagePiece(text);
    Banner(parts[0], if |parts| >= 2 && parts[1] != "" then Some(parts[1]) else None)
  }

  /** The text after the first delimiter up to the next one, or to the end when there is
      no other. */
  function SecondSegment(rest: string): string
  {
    match Text.IndexOf(rest, ImageDelimiter)
    case None => rest
    case Some(j) => rest[..j]
  }

  /** With the delimiter present, the second piece of the split is the second segment. */
  lemma ImagePiece(text: string)
    ensures Text.Contains(text, ImageDelimiter) ==>
      var parts := Text.Split(text, ImageDelimiter);
      |parts| >= 2 &&
      parts[1] == SecondSegment(text[Text.IndexOf(text, ImageDelimiter).value + |ImageDelimiter|..])
  {
    if Text.Contains(text, ImageDelimiter) {
      var rest := text[Text.IndexOf(text, ImageDelimiter).value + |ImageDelimiter|..];
      Text.SplitFirst(text, ImageDelimiter);
      Text.SplitFirst(rest, ImageDelimiter);
      assert Text.Split(text, ImageDelimiter)[1] == Text.Split(rest, ImageDelimiter)[0];
    }
  }

  /** How the backend stores a description with an image link. */
  function EncodeDescription(clean: string, image: string): (r: string)
    ensures |r| == |clean| + |ImageDelimiter| + |image|
  {
    clean + ImageDelimiter + image
  }

  /** The delimiter cannot overlap itself: its final ':' appears nowhere else in it. */
  lemma DelimiterSelfDisjoint()
    ensures Text.LastCharUnique(ImageDelimiter)
  {
  }

  /** Decoding undoes encoding: a delimiter-free text and a non-empty, delimiter-free
      link come back as they went in. */
  lemma DescriptionRoundTrip(clean: string, image: string)
    requires !Text.Contains(clean, ImageDelimiter)
    requires !Text.Contains(image, ImageDelimiter) && image != ""
    ensures DecodeDescription(Some(EncodeDescription(clean, image))) == Banner(clean, Some(image))
  {
    var text := EncodeDescription(clean, image);
    assert Coerce.TextOr(Some(text), "") == text;
    DelimiterSelfDisjoint();
    Text.SplitAfter(clean, ImageDelimiter, image);
    Text.SplitFirst(image, ImageDelimiter);
  }

  /** The match bar colour: green above 80, yellow above 40, red otherwise. */
  function MatchColour(percentage: real): (c: Colour)
    ensures c == Green <==> percentage > 80.0
    ensures c == Yellow <==> 40.0 < percentage <= 80.0
    ensures c == Red <==> percentage <= 40.0
  {
    if percentage > 80.0 then Green
    else if percentage > 40.0 then Yellow
    else Red
  }

  /** A card carries the highlight and the check mark exactly at 100 percent. */
  predicate IsPerfectMatch(r: Recipe)
  {
    r.matchPercentage == Pct(100.0)
  }

  /** The number a present `matchPercentage` compares as: `null` compares as 0. */
  function Compared(m: Match): real
    requires !m.Absent?
  {
    if m.Pct? then m.value else 0.0
  }

  /** The bar is drawn whenever `matchPercentage !== undefined`, so for `null` too, in the
      band colour of the number the field compares as. */
  function MatchBar(r: Recipe): (c: Option<Colour>)
    ensures c.None? <==> r.matchPercentage.Absent?
    ensures c.Some? ==> c.value == MatchColour(Compared(r.matchPercentage))
    ensures c == Some(Green) <==> r.matchPercentage.Pct? && r.matchPercentage.value > 80.0
    ensures c == Some(Red) <==>
      r.matchPercentage.Null? || (r.matchPercentage.Pct? && r.matchPercentage.value <= 40.0)
    ensures IsPerfectMatch(r) ==> c == Some(Green)
  {
    match r.matchPercentage
    case Absent => None
    case Null => Some(Red)
    case Pct(p) => Some(MatchColour(p))
  }

  /** Ingredient details fetched for one recipe. */
  datatype Details = Details(ingredients: seq<string>)

  /** The expanded card, if any, and the response bodies fetched so far, by recipe id. A
      body of `None` is a falsy one (`null` or `""`), which the page stores all the same. */
  datatype CardState = CardState(expanded: Option<string>, details: map<string, Option<Details>>)

  /** `recipeDetails[id]` is truthy: details for the card are on hand. */
  predicate HasDetails(s: CardState, id: string)
  {
    id in s.details && s.details[id].Some?
  }

  /** An expanded card shows the loading text while it has no truthy details. */
  predicate ShowsLoading(s: CardState, id: string)
  {
    s.expanded == Some(id) && !HasDetails(s, id)
  }

  /** The cards start collapsed with nothing cached. */
  const InitialCards := CardState(None, map[])

  /** A click on a card: the new state and the id whose details to fetch, if any. */
  datatype Toggled = Toggled(state: CardState, fetch: Option<string>)

  /** `toggleRecipeDetails`: clicking the expanded card collapses it; clicking any other
      card expands it instead, fetching its details unless truthy ones are cached. */
  function Toggle(s: CardState, id: string): (r: Toggled)
    ensures s.expanded == Some(id) ==> r == Toggled(CardState(None, s.details), None)
    ensures s.expanded != Some(id) ==> r.state == CardState(Some(id), s.details)
    ensures r.fetch.Some? <==> s.expanded != Some(id) && !HasDetails(s, id)
    ensures r.fetch.Some? ==> r.fetch.value == id
    ensures r.fetch.Some? ==> ShowsLoading(r.state, id)
  {
    if s.expanded == Some(id) then Toggled(CardState(None, s.details), None)
    else
      var body := if id in s.details then s.details[id] else None;
      Toggled(CardState(Some(id), s.details), if body.Some? then None else Some(id))
  }

  /** A details fetch that came back with `body`: it is stored under its id whatever it
      is (a failed fetch leaves the state alone). */
  function Loaded(s: CardState, id: string, body: Option<Details>): (r: CardState)
    ensures r.expanded == s.expanded
    ensures r.details.Keys == s.details.Keys + {id}
    ensures r.details[id] == body
    ensures forall k :: k in s.details && k != id ==> r.details[k] == s.details[k]
    ensures HasDetails(r, id) <==> body.Some?
  {
    CardState(s.expanded, s.details[id := body])
  }

  /** Two clicks on the same collapsed card expand it and collapse it again, leaving the
      cache as it was, and at most the first click fetches. */
  lemma ToggleTwiceCollapses(s: CardState, id: string)
    requires s.expanded != Some(id)
    ensures Toggle(Toggle(s, id).state, id) == Toggled(CardState(None, s.details), None)
  {
  }

  /** Once truthy details are cached, no later click fetches them again. */
  lemma CachedNeverRefetched(s: CardState, id: string, d: Details, other: string)
    ensures Toggle(Loaded(s, id, Some(d)), id).fetch == None
    ensures Toggle(Loaded(s, id, Some(d)), other).fetch.Some? ==>
      other != id && !HasDetails(s, other)
  {
  }

  /** A falsy body is stored but counts as nothing: while its card stays open the loading
      text stays, and the next time the card is expanded it is fetched again. */
  lemma FalsyBodyRefetched(s: CardState, id: string)
    ensures s.expanded == Some(id) ==> ShowsLoading(Loaded(s, id, None), id)
    ensures s.expanded != Some(id) ==> Toggle(Loaded(s, id, None), id).fetch == Some(id)
    ensures Toggle(Toggle(Loaded(s, id, None), id).state, id).fetch.Some? <==>
      s.expanded == Some(id)
  {
  }
}

=== FILE: seqs.dfy ===
/** Sequence combinators in the shape of the JavaScript array methods the client uses
    (`filter`, `map`, `find`, `reduce` with `+`), with their meaning stated once here. */
module Seqs {
  import opened Wrappers

  /** `r` keeps some of the elements of `s`, in the order they have in `s`. */
  predicate IsSubsequence<T(==)>(r: seq<T>, s: seq<T>)
    decreases |s|
  {
    if |r| == 0 then true
    else if |s| == 0 then false
    else if r[0] == s[0] then IsSubsequence(r[1..], s[1..])
    else IsSubsequence(r, s[1..])
  }

  /** `Array.prototype.filter`: the elements of `s` satisfying `p`, in their original order. */
  function Filter<T(==,!new)>(s: seq<T>, p: T -> bool): (r: seq<T>)
    ensures |r| <= |s|
    ensures forall x :: x in r <==> x in s && p(x)
    ensures forall i :: 0 <= i < |r| ==> p(r[i])
    ensures IsSubsequence(r, s)
    ensures |r| == |s| <==> forall i :: 0 <= i < |s| ==> p(s[i])
  {
    if |s| == 0 then []
    else if p(s[0]) then [s[0]] + Filter(s[1..], p)
    else Filter(s[1..], p)
  }

  /** `Array.prototype.map`. */
  function Map<A, B>(s: seq<A>, f: A -> B): (r: seq<B>)
    ensures |r| == |s|
    ensures forall i :: 0 <= i < |s| ==> r[i] == f(s[i])
  {
    if |s| == 0 then [] else [f(s[0])] + Map(s[1..], f)
  }

  /** `s.reduce((acc, x) => acc + f(x), 0)` over reals. */
  function Sum<T>(s: seq<T>, f: T -> real): real
  {
    if |s| == 0 then 0.0 else f(s[0]) + Sum(s[1..], f)
  }

  /** The index `Array.prototype.find` stops at: the first element satisfying `p`. */
  function FindFirst<T>(s: seq<T>, p: T -> bool): (r: Option<nat>)
    ensures r.Some? ==> r.value < |s| && p(s[r.value])
    ensures r.Some? ==> forall j :: 0 <= j < r.value ==> !p(s[j])
    ensures r.None? <==> forall j :: 0 <= j < |s| ==> !p(s[j])
  {
    if |s| == 0 then None
    else if p(s[0]) then Some(0)
    else match FindFirst(s[1..], p)
      case None => None
      case Some(k) => Some(k + 1)
  }

  /** An element satisfying the predicate survives the filter. */
  lemma FilterKeeps<T(!new)>(s: seq<T>, p: T -> bool, i: nat)
    requires i < |s| && p(s[i])
    ensures s[i] in Filter(s, p)
  {
  }

  /** Filtering distributes over concatenation: the filter never reorders across a cut. */
  lemma {:induction false} FilterAppend<T(!new)>(a: seq<T>, b: seq<T>, p: T -> bool)
    ensures Filter(a + b, p) == Filter(a, p) + Filter(b, p)
    decreases |a|
  {
    if |a| == 0 {
      assert a + b == b;
    } else {
      var ab := a + b;
      assert ab[0] == a[0];
      assert ab[1..] == a[1..] + b;
      FilterAppend(a[1..], b, p);
      if p(a[0]) {
        calc {
          Filter(ab, p);
          [a[0]] + Filter(a[1..] + b, p);
          [a[0]] + (Filter(a[1..], p) + Filter(b, p));
          ([a[0]] + Filter(a[1..], p)) + Filter(b, p);
        }
      }
    }
  }

  /** The conjunction of two predicates. */
  function Both<T>(p: T -> bool, q: T -> bool): T -> bool
  {
    x => p(x) && q(x)
  }

  /** Two filters in a row are one filter by the conjunction. */
  lemma {:induction false} FilterFilter<T(!new)>(s: seq<T>, p: T -> bool, q: T -> bool)
    ensures Filter(Filter(s, p), q) == Filter(s, Both(p, q))
    decreases |s|
  {
    if |s| > 0 {
      FilterFilter(s[1..], p, q);
    }
  }

  /** A filter every element passes changes nothing. */
  lemma {:induction false} FilterAll<T(!new)>(s: seq<T>, p: T -> bool)
    requires forall i :: 0 <= i < |s| ==> p(s[i])
    ensures Filter(s, p) == s
    decreases |s|
  {
    if |s| > 0 {
      FilterAll(s[1..], p);
    }
  }

  /** Filters by pointwise-equal predicates agree. */
  lemma {:induction false} FilterExt<T(!new)>(s: seq<T>, p: T -> bool, q: T -> bool)
    requires forall i :: 0 <= i < |s| ==> p(s[i]) == q(s[i])
    ensures Filter(s, p) == Filter(s, q)
    decreases |s|
  {
    if |s| > 0 {
      FilterExt(s[1..], p, q);
    }
  }

  /** Mapping distributes over concatenation. */
  lemma {:induction false} MapAppend<A, B>(a: seq<A>, b: seq<A>, f: A -> B)
    ensures Map(a + b, f) == Map(a, f) + Map(b, f)
    decreases |a|
  {
    if |a| == 0 {
      assert a + b == b;
    } else {
      assert (a + b)[1..] == a[1..] + b;
      MapAppend(a[1..], b, f);
    }
  }

  /** A sum over a concatenation is the sum of the two sums. */
  lemma {:induction false} SumAppend<T>(a: seq<T>, b: seq<T>, f: T -> real)
    ensures Sum(a + b, f) == Sum(a, f) + Sum(b, f)
    decreases |a|
  {
    if |a| == 0 {
      assert a + b == b;
    } else {
      assert (a + b)[1..] == a[1..] + b;
      SumAppend(a[1..], b, f);
    }
  }

  /** A sum of non-negative terms is non-negative. */
  lemma {:induction false} SumNonNegative<T>(s: seq<T>, f: T -> real)
    requires forall i :: 0 <= i < |s| ==> f(s[i]) >= 0.0
    ensures Sum(s, f) >= 0.0
    decreases |s|
  {
    if |s| > 0 {
      SumNonNegative(s[1..], f);
    }
  }
}

=== FILE: shopping_list.dfy ===
/** The shopping list page: low-stock suggestions, the budget progress bar, the
    check-out restock plan, and the section and category groupings. */
module ShoppingList {
  import opened Wrappers
  import opened Seqs
  import opened Entities
  import Text
  import Coerce
  import Grouping

  /** Pantry items at or below their threshold, in pantry order. */
  function LowStock(pantry: seq<PantryItem>): (r: seq<PantryItem>)
    ensures forall p :: p in r <==> p in pantry && p.quantity <= p.threshold
    ensures IsSubsequence(r, pantry)
  {
    Filter(pantry, IsLowStock)
  }

  /** Whether a pantry item is not yet on the grocery list. */
  function NotListed(items: seq<GroceryItem>): PantryItem -> bool
  {
    (p: PantryItem) => !OnGroceryList(p.name, items)
  }

  /** The "Low Stock Suggestions" box: low-stock pantry items whose lower-cased name
      equals no grocery item's lower-cased name (whole-name equality, not containment). */
  function Suggestions(pantry: seq<PantryItem>, items: seq<GroceryItem>): (r: seq<PantryItem>)
    ensures forall p :: p in r <==>
      && p in pantry
      && p.quantity <= p.threshold
      && forall k :: 0 <= k < |items| ==> Text.Lower(items[k].name) != Text.Lower(p.name)
    ensures IsSubsequence(r, pantry)
  {
    FilterFilter(pantry, IsLowStock, NotListed(items));
    Filter(LowStock(pantry), NotListed(items))
  }

  /** The items ticked off in shopping mode (`completedItems`). */
  function Checked(items: seq<GroceryItem>): seq<GroceryItem>
  {
    Filter(items, (i: GroceryItem) => i.isChecked)
  }

  /** An item's price as the totals read it: `Number(price) || 0`. */
  function PriceOf(i: GroceryItem): real
  {
    Coerce.NumberOr(i.price, 0.0)
  }

  /** The spent total (`currentTotal`): the prices of the checked items. */
  function CurrentTotal(items: seq<GroceryItem>): (r: real)
    ensures |Checked(items)| == 0 ==> r == 0.0
    ensures (forall k :: 0 <= k < |items| ==> PriceOf(items[k]) >= 0.0) ==> r >= 0.0
  {
    CheckedPricesNonNegative(items);
    Sum(Checked(items), PriceOf)
  }

  lemma CheckedPricesNonNegative(items: seq<GroceryItem>)
    ensures (forall k :: 0 <= k < |items| ==> PriceOf(items[k]) >= 0.0) ==> Sum(Checked(items), PriceOf) >= 0.0
  {
    var checked := Checked(items);
    if forall k :: 0 <= k < |items| ==> PriceOf(items[k]) >= 0.0 {
      forall k | 0 <= k < |checked| ensures PriceOf(checked[k]) >= 0.0 {
        assert checked[k] in items;
      }
      SumNonNegative(checked, PriceOf);
    }
  }

  /** Appending an item to the list adds its price to the total when it is checked and
      nothing when it is not. */
  lemma CurrentTotalCountsCheckedOnly(items: seq<GroceryItem>, x: GroceryItem)
    ensures CurrentTotal(items + [x]) == CurrentTotal(items) + (if x.isChecked then PriceOf(x) else 0.0)
  {
    FilterAppend(items, [x], (i: GroceryItem) => i.isChecked);
    SumAppend(Checked(items), Checked([x]), PriceOf);
  }

  /** For a positive `b`, the percentage `t / b * 100` exceeds (equals) 100 exactly when
      `t` exceeds (equals) `b`. */
  lemma PercentOfBudget(t: real, b: real)
    requires b > 0.0
    ensures (t / b * 100.0) * b == t * 100.0
    ensures t / b * 100.0 > 100.0 <==> t > b
    ensures t / b * 100.0 == 100.0 <==> t == b
    ensures t >= 0.0 ==> t / b * 100.0 >= 0.0
  {
    var q := t / b;
    assert q * b == t;
    if q > 1.0 { assert q * b > b; }
    if t > b { assert q * b > 1.0 * b; }
  }

  /** The count-based fallback `done / all * 100` lies in [0, 100] and is 100 exactly
      when every item is done. */
  lemma PercentOfCount(done: nat, all: nat)
    requires 0 < all && done <= all
    ensures ((done as real) / (all as real) * 100.0) * (all as real) == (done as real) * 100.0
    ensures 0.0 <= (done as real) / (all as real) * 100.0 <= 100.0
    ensures (done as real) / (all as real) * 100.0 == 100.0 <==> done == all
  {
    var n := all as real;
    var d := done as real;
    var q := d / n;
    assert q * n == d;
    if done == all {
      assert (q - 1.0) * n == 0.0;
      assert q == 1.0;
    } else {
      assert (1.0 - q) * n == n - d;
      assert n - d > 0.0;
      assert 1.0 - q > 0.0;
    }
    assert 0.0 <= q;
  }

  /** The unclamped `progress`: spending against the budget when one is set, otherwise
      the share of checked items, and 0 for an empty list. */
  function Progress(items: seq<GroceryItem>, budget: real): (r: real)
    ensures budget > 0.0 ==> r * budget == CurrentTotal(items) * 100.0
    ensures budget <= 0.0 && |items| > 0 ==> r == CountShare(|Checked(items)|, |items|)
    ensures budget > 0.0 ==> (r > 100.0 <==> CurrentTotal(items) > budget)
    ensures budget > 0.0 ==> (r == 100.0 <==> CurrentTotal(items) == budget)
    ensures budget > 0.0 && CurrentTotal(items) >= 0.0 ==> r >= 0.0
    ensures budget <= 0.0 ==> 0.0 <= r <= 100.0
    ensures budget <= 0.0 && |items| == 0 ==> r == 0.0
    ensures budget <= 0.0 && |items| > 0 ==> (r == 100.0 <==> |Checked(items)| == |items|)
  {
    ProgressOf(CurrentTotal(items), budget, |Checked(items)|, |items|)
  }

  /** The progress from the checked total, the budget, the checked count and the item
      count. */
  function ProgressOf(total: real, budget: real, done: nat, all: nat): (r: real)
    requires done <= all
    ensures budget > 0.0 ==> r * budget == total * 100.0
    ensures budget <= 0.0 && all > 0 ==> r * (all as real) == (done as real) * 100.0
    ensures budget > 0.0 ==> (r > 100.0 <==> total > budget)
    ensures budget > 0.0 ==> (r == 100.0 <==> total == budget)
    ensures budget > 0.0 && total >= 0.0 ==> r >= 0.0
    ensures budget <= 0.0 ==> 0.0 <= r <= 100.0
    ensures budget <= 0.0 && all == 0 ==> r == 0.0
    ensures budget <= 0.0 && all > 0 ==> (r == 100.0 <==> done == all)
  {
    if budget > 0.0 then BudgetShare(total, budget)
    else if all > 0 then CountShare(done, all)
    else 0.0
  }

  /** `total / budget * 100` for a positive budget. */
  function BudgetShare(t: real, b: real): (r: real)
    requires b > 0.0
    ensures r * b == t * 100.0
    ensures r > 100.0 <==> t > b
    ensures r == 100.0 <==> t == b
    ensures t >= 0.0 ==> r >= 0.0
  {
    PercentOfBudget(t, b);
    t / b * 100.0
  }

  /** `done / all * 100` for a non-empty list. */
  function CountShare(done: nat, all: nat): (r: real)
    requires 0 < all && done <= all
    ensures r * (all as real) == (done as real) * 100.0
    ensures 0.0 <= r <= 100.0
    ensures r == 100.0 <==> done == all
  {
    PercentOfCount(done, all);
    (done as real) / (all as real) * 100.0
  }

  /** The bar width (`displayProgress`): the progress clamped to 100. */
  function DisplayProgress(items: seq<GroceryItem>, budget: real): (r: real)
    ensures r <= 100.0
    ensures r == Progress(items, budget) || (Progress(items, budget) > 100.0 && r == 100.0)
    ensures r < Progress(items, budget) <==> IsOverBudget(items, budget)
  {
    var p := Progress(items, budget);
    if p < 100.0 then p else 100.0
  }

  /** The red state of the bar and label, read from the unclamped progress. */
  predicate IsOverBudget(items: seq<GroceryItem>, budget: real)
  {
    Progress(items, budget) > 100.0
  }

  /** The bar and label colour. */
  function ProgressColour(items: seq<GroceryItem>, budget: real): Colour
  {
    if IsOverBudget(items, budget) then Red else Green
  }

  /** The bar turns red exactly when a budget is set and the checked items cost more
      than it; without a budget the count-based fallback never turns it red. */
  lemma OverBudgetOnlyWithBudget(items: seq<GroceryItem>, budget: real)
    ensures ProgressColour(items, budget) == Red <==> budget > 0.0 && CurrentTotal(items) > budget
  {
  }

  /** The predicate "lower-cased name equals `lowered`". */
  function NamedLike(lowered: string): PantryItem -> bool
  {
    (p: PantryItem) => Text.Lower(p.name) == lowered
  }

  /** The pantry row a bought item restocks: the first with the same lower-cased name. */
  function FindPantryByName(pantry: seq<PantryItem>, name: string): (r: Option<nat>)
    ensures r.Some? ==> r.value < |pantry| && SameName(pantry[r.value].name, name)
    ensures r.Some? ==> forall j :: 0 <= j < r.value ==> !SameName(pantry[j].name, name)
    ensures r.None? <==> forall j :: 0 <= j < |pantry| ==> !SameName(pantry[j].name, name)
  {
    FindFirst(pantry, NamedLike(Text.Lower(name)))
  }

  /** The quantity a bought item adds to the pantry: `Number(quantity) || 1`. */
  function BoughtQuantity(item: GroceryItem): real
  {
    Coerce.NumberOr(item.quantity, 1.0)
  }

  /** The pantry request for one bought item: raise the first same-named pantry row by
      the bought quantity, or create a row in "Others" with threshold 1 and unit
      defaulting to "Unit". The raise is computed from the snapshot quantity. */
  function RestockRequest(item: GroceryItem, pantry: seq<PantryItem>): (r: Request)
    ensures r.PutPantry? || r.PostPantry?
    ensures r.PutPantry? <==> exists k :: 0 <= k < |pantry| && SameName(pantry[k].name, item.name)
    ensures r.PutPantry? ==> exists k ::
      && 0 <= k < |pantry|
      && SameName(pantry[k].name, item.name)
      && (forall j :: 0 <= j < k ==> !SameName(pantry[j].name, item.name))
      && r.id == pantry[k].id
      && r.quantity == pantry[k].quantity + BoughtQuantity(item)
    ensures r.PostPantry? ==>
      r.item == NewPantryItem(item.name, "Others", BoughtQuantity(item), Coerce.TextOr(item.unit, "Unit"), 1.0)
  {
    match FindPantryByName(pantry, item.name)
    case Some(k) => PutPantry(pantry[k].id, pantry[k].quantity + BoughtQuantity(item))
    case None =>
      PostPantry(NewPantryItem(item.name, "Others", BoughtQuantity(item), Coerce.TextOr(item.unit, "Unit"), 1.0))
  }

  /** One restock request per bought item, in list order. */
  function RestockPlan(bought: seq<GroceryItem>, pantry: seq<PantryItem>): (r: seq<Request>)
    ensures |r| == |bought|
    ensures forall k :: 0 <= k < |bought| ==> r[k] == RestockRequest(bought[k], pantry)
  {
    Map(bought, (i: GroceryItem) => RestockRequest(i, pantry))
  }

  /** Two bought items with the same lower-cased name that match a pantry row both set
      that row from its pre-trip quantity: each adds only its own quantity, so the
      second write overwrites the first rather than accumulating. */
  lemma RestockReadsSnapshot(bought: seq<GroceryItem>, pantry: seq<PantryItem>, i: nat, j: nat)
    requires i < |bought| && j < |bought|
    requires SameName(bought[i].name, bought[j].name)
    requires FindPantryByName(pantry, bought[i].name).Some?
    ensures var plan := RestockPlan(bought, pantry);
      var k := FindPantryByName(pantry, bought[i].name).value;
      && plan[i] == PutPantry(pantry[k].id, pantry[k].quantity + BoughtQuantity(bought[i]))
      && plan[j] == PutPantry(pantry[k].id, pantry[k].quantity + BoughtQuantity(bought[j]))
  {
    SameNameSameRow(pantry, bought[i].name, bought[j].name);
    var plan := RestockPlan(bought, pantry);
    assert plan[i] == RestockRequest(bought[i], pantry);
    assert plan[j] == RestockRequest(bought[j], pantry);
  }

  /** Names equal up to case find the same pantry row. */
  lemma SameNameSameRow(pantry: seq<PantryItem>, a: string, b: string)
    requires SameName(a, b)
    ensures FindPantryByName(pantry, a) == FindPantryByName(pantry, b)
  {
    assert NamedLike(Text.Lower(a)) == NamedLike(Text.Lower(b));
  }

  /** Two bought items with the same lower-cased name and no pantry match produce two
      separate creations. */
  lemma RestockDuplicatesCreateTwice(bought: seq<GroceryItem>, pantry: seq<PantryItem>, i: nat, j: nat)
    requires i < j < |bought|
    requires SameName(bought[i].name, bought[j].name)
    requires FindPantryByName(pantry, bought[i].name).None?
    ensures var plan := RestockPlan(bought, pantry);
      && plan[i] == PostPantry(NewPantryItem(bought[i].name, "Others", BoughtQuantity(bought[i]), Coerce.TextOr(bought[i].unit, "Unit"), 1.0))
      && plan[j] == PostPantry(NewPantryItem(bought[j].name, "Others", BoughtQuantity(bought[j]), Coerce.TextOr(bought[j].unit, "Unit"), 1.0))
  {
    SameNameSameRow(pantry, bought[i].name, bought[j].name);
    var plan := RestockPlan(bought, pantry);
    assert plan[i] == RestockRequest(bought[i], pantry);
    assert plan[j] == RestockRequest(bought[j], pantry);
  }

  /** What the "Log Trip" button reports. */
  datatype TripNotice = NothingChecked | MissingListId | TripLogged(itemCount: nat) | TripFailed

  /** The notice plus the requests the check-out sends, in order. */
  datatype TripPlan = TripPlan(notice: TripNotice, requests: seq<Request>)

  /** `finishShoppingTrip`: with no checked item, or no list id on the first checked
      item, nothing is sent; otherwise one history post carrying the spent total, then
      one restock request per checked item. */
  function FinishTrip(items: seq<GroceryItem>, pantry: seq<PantryItem>): (r: TripPlan)
    ensures |Checked(items)| == 0 ==> r == TripPlan(NothingChecked, [])
    ensures |Checked(items)| > 0 && !Coerce.Truthy(Checked(items)[0].listId) ==>
      r == TripPlan(MissingListId, [])
    ensures r.requests != [] <==> |Checked(items)| > 0 && Coerce.Truthy(Checked(items)[0].listId)
    ensures r.requests != [] ==>
      && r.notice == TripLogged(|Checked(items)|)
      && |r.requests| == |Checked(items)| + 1
      && r.requests[0] == PostHistory(Checked(items)[0].listId.value, CurrentTotal(items))
      && r.requests[1..] == RestockPlan(Checked(items), pantry)
  {
    var checked := Checked(items);
    if |checked| == 0 then TripPlan(NothingChecked, [])
    else if !Coerce.Truthy(checked[0].listId) then TripPlan(MissingListId, [])
    else
      var history := PostHistory(checked[0].listId.value, CurrentTotal(items));
      var plan := [history] + RestockPlan(checked, pantry);
      assert plan[1..] == RestockPlan(checked, pantry);
      TripPlan(TripLogged(|checked|), plan)
  }

  /** `finishShoppingTrip` as it runs: the requests are awaited one after another inside
      one `try`, and `failedAt` is the index of the first one the API rejects, if any
      (an index past the plan names no request). The rejected request has been sent,
      none after it is, and the failure notice replaces the success one. */
  function CheckOut(items: seq<GroceryItem>, pantry: seq<PantryItem>, failedAt: Option<nat>): (r: TripPlan)
    ensures r.requests <= FinishTrip(items, pantry).requests
    ensures failedAt.None? ==> r == FinishTrip(items, pantry)
    ensures failedAt.Some? && failedAt.value < |FinishTrip(items, pantry).requests| ==>
      r.notice == TripFailed && |r.requests| == failedAt.value + 1
    ensures failedAt.Some? && failedAt.value >= |FinishTrip(items, pantry).requests| ==>
      r == FinishTrip(items, pantry)
  {
    var plan := FinishTrip(items, pantry);
    match failedAt
    case Some(k) => if k < |plan.requests| then TripPlan(TripFailed, plan.requests[..k + 1]) else plan
    case None => plan
  }

  /** A rejected history post restocks nothing: it is the only request sent. */
  lemma RejectedHistoryRestocksNothing(items: seq<GroceryItem>, pantry: seq<PantryItem>)
    requires FinishTrip(items, pantry).requests != []
    ensures CheckOut(items, pantry, Some(0)).requests
      == [PostHistory(Checked(items)[0].listId.value, CurrentTotal(items))]
    ensures forall k :: 0 <= k < |CheckOut(items, pantry, Some(0)).requests| ==>
      !CheckOut(items, pantry, Some(0)).requests[k].PutPantry? && !CheckOut(items, pantry, Some(0)).requests[k].PostPantry?
  {
  }

  /** A rejected `k`-th restock leaves the pantry with the history post and the restocks
      before it and the rejected one; the restocks after it are never sent. */
  lemma RejectedRestockSkipsRest(items: seq<GroceryItem>, pantry: seq<PantryItem>, k: nat)
    requires k < |Checked(items)| && FinishTrip(items, pantry).requests != []
    ensures CheckOut(items, pantry, Some(k + 1)).requests
      == [FinishTrip(items, pantry).requests[0]] + RestockPlan(Checked(items), pantry)[..k + 1]
  {
    var plan := FinishTrip(items, pantry).requests;
    assert |plan| == |Checked(items)| + 1;
    CheckOutSendsPrefix(items, pantry, k + 1);
    var sent := CheckOut(items, pantry, Some(k + 1)).requests;
    assert sent == plan[..k + 2];
    assert plan[..k + 2] == [plan[0]] + plan[1..][..k + 1];
    assert plan[1..] == RestockPlan(Checked(items), pantry);
  }

  lemma CheckOutSendsPrefix(items: seq<GroceryItem>, pantry: seq<PantryItem>, j: nat)
    requires j < |FinishTrip(items, pantry).requests|
    ensures CheckOut(items, pantry, Some(j)).requests == FinishTrip(items, pantry).requests[..j + 1]
  {
  }

  /** Unchecked items never reach the pantry: every restock request of a logged trip
      stems from a checked item. */
  lemma TripRestocksCheckedOnly(items: seq<GroceryItem>, pantry: seq<PantryItem>, k: nat)
    requires 0 < k < |FinishTrip(items, pantry).requests|
    ensures exists i ::
      && 0 <= i < |items| && items[i].isChecked
      && FinishTrip(items, pantry).requests[k] == RestockRequest(items[i], pantry)
  {
    var checked := Checked(items);
    var r := FinishTrip(items, pantry).requests;
    assert r[k] == RestockPlan(checked, pantry)[k - 1];
    assert checked[k - 1] in items;
  }

  /** The section a grocery item is filed under. */
  function SectionOf(i: GroceryItem): string
  {
    i.section
  }

  /** An item still to buy. */
  predicate IsOpen(i: GroceryItem)
  {
    !i.isChecked
  }

  /** The predicate "still to buy and filed under section `k`". */
  function OpenIn(k: string): GroceryItem -> bool
  {
    (i: GroceryItem) => !i.isChecked && i.section == k
  }

  /** `grouped`: grocery items filed by section. */
  function SectionGroups(items: seq<GroceryItem>): seq<Grouping.Group<GroceryItem>>
  {
    Grouping.GroupBy(items, SectionOf)
  }

  /** The group a pantry item is filed under in planning mode: `category || "Others"`. */
  function CategoryOf(p: PantryItem): (r: string)
    ensures r != ""
    ensures Coerce.Truthy(p.category) ==> r == p.category.value
    ensures !Coerce.Truthy(p.category) ==> r == "Others"
  {
    Coerce.TextOr(p.category, "Others")
  }

  /** `planningGrouped`: pantry items filed by category, a missing category filed under
      "Others"; no group has an empty name and no item is lost. */
  function PlanningGroups(pantry: seq<PantryItem>): (gs: seq<Grouping.Group<PantryItem>>)
    ensures forall g :: 0 <= g < |gs| ==> gs[g].key != ""
    ensures forall g, x :: 0 <= g < |gs| && x in gs[g].members ==> x in pantry && gs[g].key == CategoryOf(x)
    ensures forall i :: 0 <= i < |pantry| ==> Grouping.Files(gs, CategoryOf(pantry[i]), pantry[i])
    ensures Grouping.MembersTotal(gs) == |pantry|
  {
    Grouping.GroupByPreservesCount(pantry, CategoryOf);
    NamedGroups(pantry);
    Grouping.GroupBy(pantry, CategoryOf)
  }

  lemma NamedGroups(pantry: seq<PantryItem>)
    ensures var gs := Grouping.GroupBy(pantry, CategoryOf);
      forall g :: 0 <= g < |gs| ==> gs[g].key != ""
  {
    var gs := Grouping.GroupBy(pantry, CategoryOf);
    forall g | 0 <= g < |gs| ensures gs[g].key != "" {
      var x := gs[g].members[0];
      assert x in gs[g].members;
    }
  }

  /** `sectionItems`: what a section shows in shopping mode, its unchecked members. */
  function OpenPart(g: Grouping.Group<GroceryItem>): Grouping.Group<GroceryItem>
  {
    Grouping.Group(g.key, Filter(g.members, IsOpen))
  }

  /** `section` is the unchecked part of one of the groups `gs`. */
  predicate ShownFrom(gs: seq<Grouping.Group<GroceryItem>>, section: Grouping.Group<GroceryItem>)
  {
    exists g :: 0 <= g < |gs| && section == OpenPart(gs[g])
  }

  /** The unchecked part of each group, dropping groups left empty. Each section shown is
      exactly the unchecked part of one group, so no item is shown twice and a section's
      items keep their order. */
  function VisibleSections(gs: seq<Grouping.Group<GroceryItem>>): (r: seq<Grouping.Group<GroceryItem>>)
    ensures forall h :: 0 <= h < |r| ==> |r[h].members| > 0
    ensures forall h :: 0 <= h < |r| ==> ShownFrom(gs, r[h])
    ensures Grouping.DistinctKeys(gs) ==> Grouping.DistinctKeys(r)
    ensures forall h, x :: 0 <= h < |r| && x in r[h].members ==> !x.isChecked && Grouping.Files(gs, r[h].key, x)
    ensures forall g, x :: 0 <= g < |gs| && x in gs[g].members && !x.isChecked ==> Grouping.Files(r, gs[g].key, x)
  {
    if |gs| == 0 then []
    else
      var rest := VisibleSections(gs[1..]);
      var head := if |OpenPart(gs[0]).members| > 0 then [OpenPart(gs[0])] else [];
      VisibleSectionsStep(gs, head, rest);
      head + rest
  }

  /** The step of `VisibleSections`: the first group's unchecked part, if any, in front of
      the sections of the other groups keeps every property of the sections. */
  lemma VisibleSectionsStep(gs: seq<Grouping.Group<GroceryItem>>,
                            head: seq<Grouping.Group<GroceryItem>>, rest: seq<Grouping.Group<GroceryItem>>)
    requires |gs| > 0
    requires head == if |OpenPart(gs[0]).members| > 0 then [OpenPart(gs[0])] else []
    requires forall h :: 0 <= h < |rest| ==> |rest[h].members| > 0
    requires forall h :: 0 <= h < |rest| ==> ShownFrom(gs[1..], rest[h])
    requires Grouping.DistinctKeys(gs[1..]) ==> Grouping.DistinctKeys(rest)
    requires forall h, x :: 0 <= h < |rest| && x in rest[h].members ==> !x.isChecked && Grouping.Files(gs[1..], rest[h].key, x)
    requires forall g, x :: 0 <= g < |gs[1..]| && x in gs[1..][g].members && !x.isChecked ==> Grouping.Files(rest, gs[1..][g].key, x)
    ensures var r := head + rest;
      && (forall h :: 0 <= h < |r| ==> |r[h].members| > 0)
      && (forall h :: 0 <= h < |r| ==> ShownFrom(gs, r[h]))
      && (Grouping.DistinctKeys(gs) ==> Grouping.DistinctKeys(r))
      && (forall h, x :: 0 <= h < |r| && x in r[h].members ==> !x.isChecked && Grouping.Files(gs, r[h].key, x))
      && (forall g, x :: 0 <= g < |gs| && x in gs[g].members && !x.isChecked ==> Grouping.Files(r, gs[g].key, x))
  {
    VisibleNonEmpty(gs, head, rest);
    VisibleShape(gs, head, rest);
    VisibleStep(gs, head, rest);
  }

  /** The step of `VisibleSections` for emptiness: no section shown is empty. */
  lemma VisibleNonEmpty(gs: seq<Grouping.Group<GroceryItem>>,
                        head: seq<Grouping.Group<GroceryItem>>, rest: seq<Grouping.Group<GroceryItem>>)
    requires |gs| > 0
    requires head == if |OpenPart(gs[0]).members| > 0 then [OpenPart(gs[0])] else []
    requires forall h :: 0 <= h < |rest| ==> |rest[h].members| > 0
    ensures forall h :: 0 <= h < |head + rest| ==> |(head + rest)[h].members| > 0
  {
    var r := head + rest;
    forall h | 0 <= h < |r|
      ensures |r[h].members| > 0
    {
      if h >= |head| {
        assert r[h] == rest[h - |head|];
      }
    }
  }

  /** The step of `VisibleSections` for the shape of the sections: each is the unchecked
      part of one group, and their keys stay distinct. */
  lemma VisibleShape(gs: seq<Grouping.Group<GroceryItem>>,
                     head: seq<Grouping.Group<GroceryItem>>, rest: seq<Grouping.Group<GroceryItem>>)
    requires |gs| > 0
    requires head == if |OpenPart(gs[0]).members| > 0 then [OpenPart(gs[0])] else []
    requires forall h :: 0 <= h < |rest| ==> ShownFrom(gs[1..], rest[h])
    requires Grouping.DistinctKeys(gs[1..]) ==> Grouping.DistinctKeys(rest)
    ensures forall h :: 0 <= h < |head + rest| ==> ShownFrom(gs, (head + rest)[h])
    ensures Grouping.DistinctKeys(gs) ==> Grouping.DistinctKeys(head + rest)
  {
    VisibleOrigin(gs, head, rest);
    KeysOfOrigin(gs[1..], rest);
    VisibleDistinct(gs, head, rest);
  }

  lemma VisibleStep(gs: seq<Grouping.Group<GroceryItem>>,
                    head: seq<Grouping.Group<GroceryItem>>, rest: seq<Grouping.Group<GroceryItem>>)
    requires |gs| > 0
    requires head == if |OpenPart(gs[0]).members| > 0 then [OpenPart(gs[0])] else []
    requires forall h, x :: 0 <= h < |rest| && x in rest[h].members ==> !x.isChecked && Grouping.Files(gs[1..], rest[h].key, x)
    requires forall g, x :: 0 <= g < |gs[1..]| && x in gs[1..][g].members && !x.isChecked ==> Grouping.Files(rest, gs[1..][g].key, x)
    ensures var r := head + rest;
      forall h, x :: 0 <= h < |r| && x in r[h].members ==> !x.isChecked && Grouping.Files(gs, r[h].key, x)
    ensures var r := head + rest;
      forall g, x :: 0 <= g < |gs| && x in gs[g].members && !x.isChecked ==> Grouping.Files(r, gs[g].key, x)
  {
    var r := head + rest;
    var open := OpenPart(gs[0]).members;
    forall h, x | 0 <= h < |r| && x in r[h].members
      ensures !x.isChecked && Grouping.Files(gs, r[h].key, x)
    {
      if h < |head| {
        assert r[h] == OpenPart(gs[0]);
        assert x in Filter(gs[0].members, IsOpen);
        assert x in gs[0].members && IsOpen(x);
        assert Grouping.Files(gs, gs[0].key, x);
      } else {
        var j := h - |head|;
        assert 0 <= j < |rest| && r[h] == rest[j];
        var checked := x.isChecked;
        assert x in rest[j].members;
        assert !checked && Grouping.Files(gs[1..], rest[j].key, x);
        var g :| 0 <= g < |gs[1..]| && gs[1..][g].key == rest[j].key && x in gs[1..][g].members;
        assert gs[g + 1] == gs[1..][g];
      }
    }
    forall g, x | 0 <= g < |gs| && x in gs[g].members && !x.isChecked
      ensures Grouping.Files(r, gs[g].key, x)
    {
      if g == 0 {
        assert IsOpen(x);
        assert x in open;
        assert r[0] == OpenPart(gs[0]);
      } else {
        assert gs[1..][g - 1] == gs[g];
        var h :| 0 <= h < |rest| && rest[h].key == gs[g].key && x in rest[h].members;
        assert r[h + |head|] == rest[h];
      }
    }
  }

  /** The step of `VisibleSections` for the shape of each section: every section shown is
      the unchecked part of one group. */
  lemma VisibleOrigin(gs: seq<Grouping.Group<GroceryItem>>,
                      head: seq<Grouping.Group<GroceryItem>>, rest: seq<Grouping.Group<GroceryItem>>)
    requires |gs| > 0
    requires head == if |OpenPart(gs[0]).members| > 0 then [OpenPart(gs[0])] else []
    requires forall h :: 0 <= h < |rest| ==> ShownFrom(gs[1..], rest[h])
    ensures var r := head + rest;
      forall h :: 0 <= h < |r| ==> ShownFrom(gs, r[h])
  {
    var r := head + rest;
    forall h | 0 <= h < |r|
      ensures ShownFrom(gs, r[h])
    {
      if h < |head| {
        assert r[h] == OpenPart(gs[0]);
      } else {
        var j := h - |head|;
        assert r[h] == rest[j];
        assert ShownFrom(gs[1..], rest[j]);
        var g :| 0 <= g < |gs[1..]| && rest[j] == OpenPart(gs[1..][g]);
        assert gs[1..][g] == gs[g + 1];
      }
    }
  }

  /** A section that is the unchecked part of a group carries that group's key. */
  lemma KeysOfOrigin(gs: seq<Grouping.Group<GroceryItem>>, r: seq<Grouping.Group<GroceryItem>>)
    requires forall h :: 0 <= h < |r| ==> ShownFrom(gs, r[h])
    ensures forall h :: 0 <= h < |r| ==> Grouping.HasKey(gs, r[h].key)
  {
    forall h | 0 <= h < |r|
      ensures Grouping.HasKey(gs, r[h].key)
    {
      assert ShownFrom(gs, r[h]);
      var g :| 0 <= g < |gs| && r[h] == OpenPart(gs[g]);
      assert r[h].key == gs[g].key;
    }
  }

  /** The step of `VisibleSections` for keys: distinct group keys stay distinct. */
  lemma VisibleDistinct(gs: seq<Grouping.Group<GroceryItem>>,
                        head: seq<Grouping.Group<GroceryItem>>, rest: seq<Grouping.Group<GroceryItem>>)
    requires |gs| > 0
    requires head == if |OpenPart(gs[0]).members| > 0 then [OpenPart(gs[0])] else []
    requires forall h :: 0 <= h < |rest| ==> Grouping.HasKey(gs[1..], rest[h].key)
    requires Grouping.DistinctKeys(gs[1..]) ==> Grouping.DistinctKeys(rest)
    ensures Grouping.DistinctKeys(gs) ==> Grouping.DistinctKeys(head + rest)
  {
    if Grouping.DistinctKeys(gs) {
      DistinctTail(gs);
      var r := head + rest;
      forall a, b | 0 <= a < b < |r|
        ensures r[a].key != r[b].key
      {
        var j := b - |head|;
        if a < |head| {
          assert r[a].key == gs[0].key;
          assert r[b] == rest[j];
          assert Grouping.HasKey(gs[1..], rest[j].key);
          var g :| 0 <= g < |gs[1..]| && gs[1..][g].key == rest[j].key;
          assert gs[1..][g] == gs[g + 1];
        } else {
          assert r[a] == rest[a - |head|] && r[b] == rest[j];
        }
      }
    }
  }

  /** Dropping the first group keeps the keys distinct. */
  lemma DistinctTail(gs: seq<Grouping.Group<GroceryItem>>)
    requires |gs| > 0 && Grouping.DistinctKeys(gs)
    ensures Grouping.DistinctKeys(gs[1..])
  {
    forall a, b | 0 <= a < b < |gs[1..]|
      ensures gs[1..][a].key != gs[1..][b].key
    {
      assert gs[1..][a] == gs[a + 1] && gs[1..][b] == gs[b + 1];
    }
  }

  /** The shopping-mode sections: each section shows exactly the unchecked items of its
      own section, in list order (so its "N items" count is theirs), a section whose items
      are all checked is hidden, no section appears twice, and every unchecked item is
      shown under its own section. */
  function ShoppingSections(items: seq<GroceryItem>): (r: seq<Grouping.Group<GroceryItem>>)
    ensures forall h :: 0 <= h < |r| ==> |r[h].members| > 0
    ensures forall h :: 0 <= h < |r| ==> r[h].members == Filter(items, OpenIn(r[h].key))
    ensures Grouping.DistinctKeys(r)
    ensures forall h, x :: 0 <= h < |r| && x in r[h].members ==>
      x in items && !x.isChecked && x.section == r[h].key
    ensures forall i :: 0 <= i < |items| && !items[i].isChecked ==> Grouping.Files(r, items[i].section, items[i])
  {
    var gs := SectionGroups(items);
    var r := VisibleSections(gs);
    SectionsShowUnchecked(items, gs, r);
    SectionsAreFilters(items, gs, r);
    r
  }

  /** Each shown section is the list filtered to the unchecked items of that section. */
  lemma SectionsAreFilters(items: seq<GroceryItem>, gs: seq<Grouping.Group<GroceryItem>>, r: seq<Grouping.Group<GroceryItem>>)
    requires forall g :: 0 <= g < |gs| ==> gs[g].members == Filter(items, Grouping.KeyIs(SectionOf, gs[g].key))
    requires forall h :: 0 <= h < |r| ==> ShownFrom(gs, r[h])
    ensures forall h :: 0 <= h < |r| ==> r[h].members == Filter(items, OpenIn(r[h].key))
  {
    forall h | 0 <= h < |r|
      ensures r[h].members == Filter(items, OpenIn(r[h].key))
    {
      assert ShownFrom(gs, r[h]);
      var g :| 0 <= g < |gs| && r[h] == OpenPart(gs[g]);
      OpenPartOfSection(items, gs[g]);
    }
  }

  /** The unchecked part of a section's group is the list filtered to that section's
      unchecked items. */
  lemma OpenPartOfSection(items: seq<GroceryItem>, g: Grouping.Group<GroceryItem>)
    requires g.members == Filter(items, Grouping.KeyIs(SectionOf, g.key))
    ensures OpenPart(g).members == Filter(items, OpenIn(g.key))
  {
    var k := g.key;
    FilterFilter(items, Grouping.KeyIs(SectionOf, k), IsOpen);
    forall i | 0 <= i < |items|
      ensures Both(Grouping.KeyIs(SectionOf, k), IsOpen)(items[i]) == OpenIn(k)(items[i])
    {
      var x := items[i];
      assert SectionOf(x) == x.section;
      assert Grouping.KeyIs(SectionOf, k)(x) == (SectionOf(x) == k);
      assert Both(Grouping.KeyIs(SectionOf, k), IsOpen)(x) == (x.section == k && !x.isChecked);
      assert OpenIn(k)(x) == (!x.isChecked && x.section == k);
    }
    FilterExt(items, Both(Grouping.KeyIs(SectionOf, k), IsOpen), OpenIn(k));
  }

  lemma SectionsShowUnchecked(items: seq<GroceryItem>, gs: seq<Grouping.Group<GroceryItem>>, r: seq<Grouping.Group<GroceryItem>>)
    requires forall g, x :: 0 <= g < |gs| && x in gs[g].members ==> x in items && SectionOf(x) == gs[g].key
    requires forall i :: 0 <= i < |items| ==> Grouping.Files(gs, SectionOf(items[i]), items[i])
    requires forall h, x :: 0 <= h < |r| && x in r[h].members ==> !x.isChecked && Grouping.Files(gs, r[h].key, x)
    requires forall g, x :: 0 <= g < |gs| && x in gs[g].members && !x.isChecked ==> Grouping.Files(r, gs[g].key, x)
    ensures forall h, x :: 0 <= h < |r| && x in r[h].members ==>
      x in items && !x.isChecked && x.section == r[h].key
    ensures forall i :: 0 <= i < |items| && !items[i].isChecked ==> Grouping.Files(r, items[i].section, items[i])
  {
    forall h, x | 0 <= h < |r| && x in r[h].members
      ensures x in items && !x.isChecked && x.section == r[h].key
    {
      var checked := x.isChecked;
      assert !checked && Grouping.Files(gs, r[h].key, x);
      var g :| 0 <= g < |gs| && gs[g].key == r[h].key && x in gs[g].members;
    }
    forall i | 0 <= i < |items| && !items[i].isChecked
      ensures Grouping.Files(r, items[i].section, items[i])
    {
      assert Grouping.Files(gs, SectionOf(items[i]), items[i]);
      var g :| 0 <= g < |gs| && gs[g].key == SectionOf(items[i]) && items[i] in gs[g].members;
    }
  }
}

=== FILE: text.dfy ===
/** String helpers the client relies on: `toLowerCase`, `trim`, `includes`, `indexOf`,
    `split` and `join`, with JavaScript's semantics for the cases the client reaches. */
module Text {
  import opened Wrappers

  /** Lower-cases an ASCII letter; every other character is unchanged. */
  function LowerChar(c: char): char
  {
    if 'A' <= c <= 'Z' then (c as int - 'A' as int + 'a' as int) as char else c
  }

  /** `toLowerCase`, character by character. */
  function Lower(s: string): (r: string)
    ensures |r| == |s|
    ensures forall i :: 0 <= i < |s| ==> r[i] == LowerChar(s[i])
    ensures forall i :: 0 <= i < |r| ==> !('A' <= r[i] <= 'Z')
  {
    if |s| == 0 then [] else [LowerChar(s[0])] + Lower(s[1..])
  }

  /** The WhiteSpace and LineTerminator characters that `String.prototype.trim` strips. */
  predicate IsSpace(c: char)
  {
    || c == ' ' || c == '\t' || c == '\n' || c == '\r'
    || c == '\U{B}' || c == '\U{C}' || c == '\U{A0}' || c == '\U{1680}'
    || ('\U{2000}' <= c <= '\U{200A}')
    || c == '\U{2028}' || c == '\U{2029}' || c == '\U{202F}' || c == '\U{205F}'
    || c == '\U{3000}' || c == '\U{FEFF}'
  }

  /** Every character of `s` from index `lo` up to `hi` is whitespace. */
  predicate AllSpace(s: string, lo: int, hi: int)
  {
    forall i :: lo <= i < hi ==> 0 <= i < |s| && IsSpace(s[i])
  }

  /** Neither end of `s` is whitespace. */
  predicate IsTrimmed(s: string)
  {
    |s| == 0 || (!IsSpace(s[0]) && !IsSpace(s[|s| - 1]))
  }

  /** `s` with its leading whitespace removed: a suffix of `s`. */
  function TrimStart(s: string): (r: string)
    ensures |r| <= |s| && r == s[|s| - |r|..]
    ensures AllSpace(s, 0, |s| - |r|)
    ensures |r| > 0 ==> !IsSpace(r[0])
  {
    if |s| > 0 && IsSpace(s[0]) then TrimStart(s[1..]) else s
  }

  /** `s` with its trailing whitespace removed: a prefix of `s`. */
  function TrimEnd(s: string): (r: string)
    ensures |r| <= |s| && r == s[..|r|]
    ensures AllSpace(s, |r|, |s|)
    ensures |r| > 0 ==> !IsSpace(r[|r| - 1])
  {
    if |s| > 0 && IsSpace(s[|s| - 1]) then TrimEnd(s[..|s| - 1]) else s
  }

  /** `r` occurs in `s` starting at index `a`. */
  predicate SliceAt(s: string, a: nat, r: string)
  {
    a + |r| <= |s| && r == s[a..a + |r|]
  }

  /** `String.prototype.trim`: the slice of `s` left after stripping whitespace at both
      ends; only whitespace is removed. */
  function Trim(s: string): (r: string)
    ensures IsTrimmed(r)
    ensures var a := |s| - |TrimStart(s)|;
      && SliceAt(s, a, r)
      && AllSpace(s, 0, a)
      && AllSpace(s, a + |r|, |s|)
    ensures IsTrimmed(s) ==> r == s
  {
    TrimCuts(s);
    TrimKeepsTrimmed(s);
    TrimEnd(TrimStart(s))
  }

  /** What `Trim` keeps is a trimmed slice of `s`, and what it drops is whitespace. */
  lemma TrimCuts(s: string)
    ensures var t := TrimStart(s);
      var r := TrimEnd(t);
      && IsTrimmed(r)
      && SliceAt(s, |s| - |t|, r)
      && AllSpace(s, 0, |s| - |t|)
      && AllSpace(s, |s| - |t| + |r|, |s|)
  {
    TrimSlice(s, TrimStart(s), TrimEnd(TrimStart(s)));
  }

  /** Trimming cuts a slice out of `s` with only whitespace on either side of it: the
      facts `TrimStart` and `TrimEnd` give, put together. */
  lemma TrimSlice(s: string, t: string, r: string)
    requires |t| <= |s| && t == s[|s| - |t|..] && (|t| > 0 ==> !IsSpace(t[0]))
    requires |r| <= |t| && r == t[..|r|] && (|r| > 0 ==> !IsSpace(r[|r| - 1]))
    requires AllSpace(t, |r|, |t|)
    ensures IsTrimmed(r)
    ensures SliceAt(s, |s| - |t|, r)
    ensures AllSpace(s, |s| - |t| + |r|, |s|)
  {
    SliceOfSuffix(s, t, r);
    TrailingSpace(s, t, r);
    if |r| > 0 {
      assert r[0] == t[0];
    }
  }

  /** A prefix `r` of a suffix `t` of `s` is a slice of `s`. */
  lemma SliceOfSuffix(s: string, t: string, r: string)
    requires |t| <= |s| && t == s[|s| - |t|..]
    requires |r| <= |t| && r == t[..|r|]
    ensures |s| - |t| + |r| <= |s| && r == s[|s| - |t|..|s| - |t| + |r|]
  {
  }

  /** What `TrimEnd` strips from the suffix `t` is whitespace at the end of `s`. */
  lemma TrailingSpace(s: string, t: string, r: string)
    requires |t| <= |s| && t == s[|s| - |t|..]
    requires |r| <= |t| && AllSpace(t, |r|, |t|)
    ensures AllSpace(s, |s| - |t| + |r|, |s|)
  {
    var a := |s| - |t|;
    forall i | a + |r| <= i < |s|
      ensures IsSpace(s[i])
    {
      assert s[i] == t[i - a];
    }
  }

  /** Text that is already trimmed is left as it is. */
  lemma TrimKeepsTrimmed(s: string)
    ensures IsTrimmed(s) ==> TrimEnd(TrimStart(s)) == s
  {
    if IsTrimmed(s) && |s| > 0 {
      assert TrimStart(s) == s;
    }
  }

  /** `t` occurs in `s` starting at index `i`. */
  predicate OccursAt(s: string, t: string, i: int)
  {
    0 <= i && i + |t| <= |s| && s[i..i + |t|] == t
  }

  /** The first index at or after `k` where `t` occurs in `s`. */
  function IndexOfFrom(s: string, t: string, k: nat): (r: Option<nat>)
    ensures r.Some? ==> k <= r.value && OccursAt(s, t, r.value)
    ensures r.Some? ==> forall j :: k <= j < r.value ==> !OccursAt(s, t, j)
    ensures r.None? <==> forall j :: k <= j ==> !OccursAt(s, t, j)
    decreases |s| - k
  {
    if k + |t| > |s| then None
    else if s[k..k + |t|] == t then assert OccursAt(s, t, k); Some(k)
    else IndexOfFrom(s, t, k + 1)
  }

  /** `s.indexOf(t)`, with `None` for -1. */
  function IndexOf(s: string, t: string): Option<nat>
  {
    IndexOfFrom(s, t, 0)
  }

  /** `s.includes(t)`. */
  predicate Contains(s: string, t: string)
  {
    IndexOf(s, t).Some?
  }

  /** `Contains` holds exactly when `t` occurs somewhere in `s`; the empty string occurs
      everywhere. */
  lemma ContainsMeaning(s: string, t: string)
    ensures Contains(s, t) <==> exists i :: OccursAt(s, t, i)
    ensures |t| == 0 ==> Contains(s, t)
  {
    if |t| == 0 {
      assert OccursAt(s, t, 0);
    }
  }

  /** `parts.join(sep)`. */
  function Join(parts: seq<string>, sep: string): string
  {
    if |parts| == 0 then ""
    else if |parts| == 1 then parts[0]
    else parts[0] + sep + Join(parts[1..], sep)
  }

  /** An occurrence inside a prefix of `s` is an occurrence in `s`. */
  lemma OccursInPrefix(s: string, t: string, n: nat, j: int)
    requires n <= |s|
    requires OccursAt(s[..n], t, j)
    ensures OccursAt(s, t, j)
  {
    assert s[..n][j..j + |t|] == s[j..j + |t|];
  }

  /** An occurrence inside a suffix of `s` is an occurrence in `s`, shifted. */
  lemma OccursInSuffix(s: string, t: string, n: nat, j: int)
    requires n <= |s|
    requires OccursAt(s[n..], t, j)
    ensures OccursAt(s, t, n + j)
  {
    assert s[n..][j..j + |t|] == s[n + j..n + j + |t|];
  }

  /** The text before the first occurrence of `sep` does not contain `sep`. */
  lemma HeadBeforeFirstOccurrence(s: string, sep: string, i: nat)
    requires |sep| > 0
    requires IndexOf(s, sep) == Some(i)
    ensures !Contains(s[..i], sep)
  {
    if Contains(s[..i], sep) {
      var j := IndexOf(s[..i], sep).value;
      OccursInPrefix(s, sep, i, j);
    }
  }

  /** `s.split(sep)` for a non-empty separator: the pieces between the non-overlapping
      occurrences of `sep`, found left to right. Joining them back gives `s`, and no piece
      contains `sep`. */
  function Split(s: string, sep: string): (parts: seq<string>)
    requires |sep| > 0
    ensures |parts| >= 1
    ensures Join(parts, sep) == s
    ensures forall i :: 0 <= i < |parts| ==> !Contains(parts[i], sep)
    decreases |s|
  {
    match IndexOf(s, sep)
    case None => [s]
    case Some(i) =>
      var head := s[..i];
      var rest := Split(s[i + |sep|..], sep);
      assert s == head + sep + s[i + |sep|..];
      HeadBeforeFirstOccurrence(s, sep, i);
      assert ([head] + rest)[1..] == rest;
      [head] + rest
  }

  /** The first piece of a split is the text before the first occurrence of the
      separator, or the whole string when there is none. */
  lemma SplitFirst(s: string, sep: string)
    requires |sep| > 0
    ensures IndexOf(s, sep).None? ==> Split(s, sep) == [s]
    ensures IndexOf(s, sep).Some? ==>
      var i := IndexOf(s, sep).value;
      |Split(s, sep)| >= 2 && Split(s, sep)[0] == s[..i]
      && Split(s, sep)[1..] == Split(s[i + |sep|..], sep)
  {
  }

  /** The last character of `sep` occurs nowhere else in it, so two occurrences of `sep`
      can never overlap. Every one-character separator qualifies. */
  predicate LastCharUnique(sep: string)
  {
    |sep| > 0 && forall k :: 0 <= k < |sep| - 1 ==> sep[k] != sep[|sep| - 1]
  }

  /** No occurrence of `sep` in `a + sep + b` starts inside `a`: one lying wholly in `a`
      is excluded by the requires, and one straddling the boundary would put the last
      character of `sep` at an earlier position of the appended `sep`. */
  lemma NoOccurrenceBefore(a: string, sep: string, b: string, j: nat)
    requires LastCharUnique(sep) && !Contains(a, sep)
    requires j < |a|
    ensures !OccursAt(a + sep + b, sep, j)
  {
    var s := a + sep + b;
    if j + |sep| <= |a| {
      assert a[j..j + |sep|] == s[j..j + |sep|];
      ContainsMeaning(a, sep);
      assert !OccursAt(a, sep, j);
    } else {
      var p := j + |sep| - 1;
      assert s[p] == sep[p - |a|];
      if j + |sep| <= |s| {
        assert s[j..j + |sep|][|sep| - 1] == s[p];
      }
    }
  }

  /** The first occurrence of `sep` in `a + sep + b` is the appended one. */
  lemma FirstOccurrenceAfter(a: string, sep: string, b: string)
    requires LastCharUnique(sep) && !Contains(a, sep)
    ensures IndexOf(a + sep + b, sep) == Some(|a|)
  {
    var s := a + sep + b;
    assert s[|a|..|a| + |sep|] == sep;
    assert OccursAt(s, sep, |a|);
    forall j | 0 <= j < |a| ensures !OccursAt(s, sep, j) {
      NoOccurrenceBefore(a, sep, b, j);
    }
  }

  /** Splitting `a + sep + b` yields `a` followed by the pieces of `b`. */
  lemma SplitAfter(a: string, sep: string, b: string)
    requires LastCharUnique(sep) && !Contains(a, sep)
    ensures Split(a + sep + b, sep) == [a] + Split(b, sep)
  {
    var s := a + sep + b;
    FirstOccurrenceAfter(a, sep, b);
    SplitFirst(s, sep);
    assert s[..|a|] == a;
    assert s[|a| + |sep|..] == b;
    var parts := Split(s, sep);
    assert parts == [parts[0]] + parts[1..];
  }

  /** Split undoes Join: pieces free of a non-self-overlapping separator come back
      exactly, in order, from the joined text. */
  lemma {:induction false} SplitJoin(parts: seq<string>, sep: string)
    requires |parts| >= 1 && LastCharUnique(sep)
    requires forall i :: 0 <= i < |parts| ==> !Contains(parts[i], sep)
    ensures Split(Join(parts, sep), sep) == parts
    decreases |parts|
  {
    if |parts| == 1 {
      SplitFirst(parts[0], sep);
    } else {
      SplitJoin(parts[1..], sep);
      SplitAfter(parts[0], sep, Join(parts[1..], sep));
      assert parts == [parts[0]] + parts[1..];
    }
  }

  /** A one-character needle is contained exactly when the character occurs. */
  lemma ContainsChar(s: string, c: char)
    ensures Contains(s, [c]) <==> c in s
  {
    ContainsMeaning(s, [c]);
    if c in s {
      var i :| 0 <= i < |s| && s[i] == c;
      assert s[i..i + 1] == [c];
      assert OccursAt(s, [c], i);
    }
    if Contains(s, [c]) {
      var i := IndexOf(s, [c]).value;
      assert s[i..i + 1][0] == s[i];
    }
  }

  /** Leading whitespace before a text that starts with a non-space is all `TrimStart` removes. */
  lemma {:induction false} TrimStartPrefix(w: string, x: string)
    requires forall i :: 0 <= i < |w| ==> IsSpace(w[i])
    requires |x| > 0 && !IsSpace(x[0])
    ensures TrimStart(w + x) == x
    decreases |w|
  {
    if |w| == 0 {
      assert w + x == x;
    } else {
      assert (w + x)[1..] == w[1..] + x;
      TrimStartPrefix(w[1..], x);
    }
  }

  /** Trimming whitespace followed by a non-empty trimmed text gives that text. */
  lemma TrimAfterSpaces(w: string, x: string)
    requires forall i :: 0 <= i < |w| ==> IsSpace(w[i])
    requires |x| > 0 && IsTrimmed(x)
    ensures Trim(w + x) == x
  {
    TrimStartPrefix(w, x);
  }

  /** Trimming text made only of whitespace leaves nothing. */
  lemma TrimAllSpaces(w: string)
    requires forall i :: 0 <= i < |w| ==> IsSpace(w[i])
    ensures Trim(w) == ""
  {
  }

  /** A trimmed text has no character that was not in the original. */
  lemma TrimKeepsOut(s: string, c: char)
    requires c !in s
    ensures c !in Trim(s)
  {
  }
}

=== FILE: usage_modal.dfy ===
/** The "Log Usage" dialog: the submit decision (reject, delete the used-up item, or
    lower its quantity), the "Remove Completely" button, and the form reset. */
module UsageModal {
  import opened Wrappers
  import opened Seqs
  import opened Entities

  /** The two form fields. `amount` is `Number(usedQty)`; the empty field reads as 0. */
  datatype UsageForm = UsageForm(selected: string, amount: real)

  /** The form as it opens and as it is reset after a successful request. */
  const EmptyForm := UsageForm("", 0.0)

  /** What a button press decides: an error toast, or one request to send. */
  datatype Decision = Rejected(message: string) | Send(request: Request)

  const NoItemMessage := "Please select an item"
  const BadAmountMessage := "Please enter a valid amount"
  const NoRemovalMessage := "Please select an item to remove"
  const RemoveFailedMessage := "Failed to remove item"

  /** Whether a pantry row is the one the selection names (ids compared as strings). */
  function IdIs(id: string): PantryItem -> bool
  {
    (p: PantryItem) => p.id == id
  }

  /** `pantry.find(...)`: the index of the first row with the selected id. */
  function FindById(pantry: seq<PantryItem>, id: string): (r: Option<nat>)
    ensures r.Some? ==> r.value < |pantry| && pantry[r.value].id == id
    ensures r.Some? ==> forall j :: 0 <= j < r.value ==> pantry[j].id != id
    ensures r.None? <==> forall j :: 0 <= j < |pantry| ==> pantry[j].id != id
  {
    FindFirst(pantry, IdIs(id))
  }

  /** `handleSubmit`. An unknown selection and a non-positive amount are rejected before
      anything is sent; an amount that uses the item up deletes it; any smaller amount
      writes the lowered quantity, which stays positive. */
  function Submit(form: UsageForm, pantry: seq<PantryItem>): (r: Decision)
    ensures (forall j :: 0 <= j < |pantry| ==> pantry[j].id != form.selected) ==>
      r == Rejected(NoItemMessage)
    ensures (exists j :: 0 <= j < |pantry| && pantry[j].id == form.selected) && form.amount <= 0.0 ==>
      r == Rejected(BadAmountMessage)
    ensures r.Send? <==>
      (exists j :: 0 <= j < |pantry| && pantry[j].id == form.selected) && form.amount > 0.0
    ensures r.Send? ==>
      var i := FindById(pantry, form.selected).value;
      var left := pantry[i].quantity - form.amount;
      && (left <= 0.0 ==> r.request == DeletePantry(pantry[i].id))
      && (left > 0.0 ==> r.request == PutPantry(pantry[i].id, left))
    ensures r.Send? && r.request.PutPantry? ==>
      exists j :: 0 <= j < |pantry| && pantry[j].id == r.request.id
        && 0.0 < r.request.quantity < pantry[j].quantity
  {
    match FindById(pantry, form.selected)
    case None => Rejected(NoItemMessage)
    case Some(i) =>
      if form.amount <= 0.0 then Rejected(BadAmountMessage)
      else
        var left := pantry[i].quantity - form.amount;
        if left <= 0.0 then Send(DeletePantry(pantry[i].id))
        else Send(PutPantry(pantry[i].id, left))
  }

  /** The "Remove Completely" button. An empty selection is rejected. A selection that
      names no row makes `itemToUpdate.id` throw inside the `try`, which surfaces as the
      removal-failed toast with nothing sent. Otherwise the row is deleted. */
  function RemoveCompletely(form: UsageForm, pantry: seq<PantryItem>): (r: Decision)
    ensures form.selected == "" ==> r == Rejected(NoRemovalMessage)
    ensures r.Send? <==>
      form.selected != "" && exists j :: 0 <= j < |pantry| && pantry[j].id == form.selected
    ensures r.Send? ==> r.request.DeletePantry? && r.request.id == form.selected
    ensures r.Rejected? && form.selected != "" ==> r == Rejected(RemoveFailedMessage)
  {
    if form.selected == "" then Rejected(NoRemovalMessage)
    else match FindById(pantry, form.selected)
      case None => Rejected(RemoveFailedMessage)
      case Some(i) => Send(DeletePantry(pantry[i].id))
  }

  /** The form after a request was sent: reset to empty on success, kept on failure. */
  function AfterRequest(form: UsageForm, succeeded: bool): (r: UsageForm)
    ensures succeeded ==> r.selected == "" && r.amount == 0.0
    ensures !succeeded ==> r == form
  {
    if succeeded then EmptyForm else form
  }

  /** "Remove Completely" deletes whatever amount is typed: the amount field plays no part. */
  lemma RemoveIgnoresAmount(selected: string, a: real, b: real, pantry: seq<PantryItem>)
    ensures RemoveCompletely(UsageForm(selected, a), pantry) == RemoveCompletely(UsageForm(selected, b), pantry)
  {
  }

  /** Logging an amount at least as large as the stock sends the very request the
      "Remove Completely" button sends for the same selection. */
  lemma UsedUpIsRemoval(form: UsageForm, pantry: seq<PantryItem>, i: nat)
    requires i < |pantry| && pantry[i].id == form.selected && form.selected != ""
    requires form.amount > 0.0 && form.amount >= pantry[i].quantity
    requires forall j :: 0 <= j < |pantry| && pantry[j].id == form.selected ==> pantry[j].quantity == pantry[i].quantity
    ensures Submit(form, pantry) == RemoveCompletely(form, pantry)
    ensures Submit(form, pantry) == Send(DeletePantry(form.selected))
  {
    var k := FindById(pantry, form.selected).value;
    assert pantry[k].quantity == pantry[i].quantity;
  }

  /** A submit never raises stock: whatever it sends either deletes the row or writes a
      quantity strictly below the current one, and removes exactly the amount typed. */
  lemma SubmitLowersStock(form: UsageForm, pantry: seq<PantryItem>)
    requires Submit(form, pantry).Send?
    ensures var req := Submit(form, pantry).request;
      var i := FindById(pantry, form.selected).value;
      req.id == pantry[i].id
      && (req.PutPantry? ==> req.quantity + form.amount == pantry[i].quantity)
      && (req.DeletePantry? ==> pantry[i].quantity <= form.amount)
  {
  }
}

=== FILE: wrappers.dfy ===
/** The optional value used wherever the client reads a field that may be null or
    undefined. */
module Wrappers {

  datatype Option<+T> = None | Some(value: T) {

    /** The wrapped value, or `default` when there is none. */
    function GetOr(default: T): T {
      match this
      case Some(v) => v
      case None => default
    }
  }
}
